=== FILE: README.md ===
# reactive-iui, modelled in Dafny

reactive-iui is a small Rust framework. An application describes its UI as
immutable widget values: `Button`, `Group`, a click `Handler` around a button,
a `ConnectSingleChild` that puts one widget into a group, and a
`ComponentWidget` that embeds a stateful component. The framework turns those
values into native `iui` controls and entities of a `legion` world. Clicks
travel as events over `mpsc` channels back to the component that owns the
button.

This project models the framework's core as pure functions over immutable
data and proves properties of that model:

- **Widget values and their equality** (`Widgets`, `Equality`). The widget
  types form one closed datatype. `TypeOf` stands for Rust type identity, so
  `BoxedEq` can reproduce the downcast in `BoxedPrimitiveWidget::eq`. Each
  type's `PartialEq` quirk is kept: `Handler` compares only its child, and
  `ConnectSingleChild` compares only its parent.
- **Materialisation** (`Store`, `Materialise`). `create_entity` and
  `create_typed_control` work on an arena of entities, where an entity's id is
  its index. Native controls are abstract ids. Native calls go into an
  append-only action log, and every channel is a FIFO queue of events.
- **The run loop** (`Runtime`). This covers the initial build in `App::run`
  and its `on_tick` closure:
  - take at most one event from the root channel and rebuild the whole root
    view;
  - first pass: take at most one event per matched component entity and edit
    its state in place;
  - second pass: build each new view, attach it to the parent, destroy the old
    control and store the new control on the entity.

Every re-render materialises the new view from scratch. The code has no
diffing, field-update or reconciliation path.

Three consequences of the code as written follow from the proved contracts:

- The component query in the tick asks for a
  `Fragile<Box<dyn SingleChildParentControl>>` component. No `create_entity`
  ever inserts one. `Runtime.TickIsRootStep` and `Runtime.RunInvariant` show
  that, from the initial build on, every tick is only its root step: events
  sent to a nested component's channel are never applied. The tick's two
  passes are still specified, in `Runtime.TickSpec`, for any world meeting the
  invariant, including worlds in which such entities exist, except as listed
  under "Left out".
- The root rebuild installs a new window child and never destroys the old root
  controls.
- A component entity stores its view's root control as its own, so a
  component whose `view()` is directly another component shares one control
  with it. Were both drained in one tick, that control would be destroyed
  twice: the second pass destroys one old control per update, repeats
  included.

Application code appears as parameters of a `Program`:

- each component's `view`;
- each handler's body, as a function of its code and the component's fields.

## Model

| member | source | states |
|---|---|---|
| Widgets.Handle | src/widgets.rs:117-121 | Handling an event succeeds exactly when the handler's `SelfTy` is the component's concrete type. It then runs the handler on that component and keeps its type. A type mismatch is the fatal `DowncastPanic` fault of the `unwrap`, not a value. |
| Equality.BoxedEqIsTypedEq | src/widgets.rs:63-87 | Boxed equality holds exactly when both values have the same concrete type and that type's `PartialEq` holds. It gives the same answer whichever side is asked. Values of different types are never equal. |
| Equality.BoxedEqReflexive | src/widgets.rs:67-68 | Every widget value is boxed-equal to itself, including handlers and connections, whose equality skips fields. |
| Equality.BoxedEqSymmetric | src/widgets.rs:83-87 | `a == b` exactly when `b == a` for boxed widgets, even though the downcast is taken on one side only. |
| Equality.BoxedEqTransitive | src/widgets.rs:83-87 | Boxed equality is transitive, so with reflexivity and symmetry it is an equivalence. |
| Equality.ButtonEquality | src/widgets/button.rs:3-6 | A button equals exactly the buttons with the same text. |
| Equality.GroupEquality | src/widgets/group.rs:3-7 | A group equals exactly the groups with the same title and the same margin. |
| Equality.ComponentEquality | src/widgets/component.rs:11-12 | A component widget equals exactly the component widgets wrapping an equal component value. |
| Equality.HandlerEquality | src/widgets.rs:139-143 | Two handlers are equal exactly when they have the same `SelfTy` and equal children. The handler function and the event play no part. |
| Equality.ConnectEquality | src/widgets.rs:186-190 | Two connections are equal exactly when their children have the same type and their parents are equal. The child's value plays no part. |
| Equality.OnClickedEquality | src/widgets/button.rs:11-17 | `b.on_clicked(h1) == b.on_clicked(h2)` holds exactly when the two handlers expect the same component type, whatever functions they are. |
| Equality.GroupChildEquality | src/widgets/group.rs:9-17 | `g1.child(c1) == g2.child(c2)` holds exactly when the groups are equal and the children have the same type, whatever their values. |
| Equality.ChildIsIgnored | src/widgets.rs:186-190 | Concrete witness: a "Hello" group with child button "world!" and the same group with child "there!" are different values but compare equal. |
| Store.Send | src/widgets/button.rs:44-46 | Sending appends the event at the back of its channel and leaves every other channel, the entities, the controls and the log as they were. A send to a channel that does not exist changes nothing. |
| Store.TryRecv | src/lib.rs:64 | A receive yields something exactly when the channel holds an event. It then yields the oldest event and leaves the rest of that channel in order, with nothing else changed. An empty channel yields `None`, not an error. |
| Store.SendThenReceive | src/lib.rs:89 | The channels are FIFO. On an empty channel, a send followed by a receive returns the sent event and leaves the world as it was. On a non-empty channel, a receive after a send equals the receive done first with the send done after. |
| Store.Click | src/widgets/button.rs:36-47 | One click puts exactly one event, carrying the bound handler, on the sender captured when the listener was registered. No other channel changes. A click whose channel does not exist changes nothing. |
| Materialise.CreateEntity | src/widgets.rs:154-214 | Materialising only adds to the world: entities, controls, still-empty channels and log entries. The returned entity is one this call inserted, and its control is one this call allocated. It fails only for trees that contain a component, when the nesting bound is exhausted. |
| Materialise.CreateControl | src/widgets.rs:35-50 | `create_typed_control` succeeds exactly when `create_entity` does. It returns the same entity and world, paired with the control stored on that entity, so the `unwrap` never fails. |
| Materialise.ButtonEntity | src/widgets/button.rs:24-29 | A button inserts exactly one entity at the next id. That entity holds a clone of the button and a new control made from its text. The button leaves the channels unchanged, and its result is the same for every sender. |
| Materialise.GroupEntity | src/widgets/group.rs:24-32 | A group inserts exactly one entity holding a clone of the group and a new control created with its title. The control's margin is then set from `margined`. The result is the same for every sender. |
| Materialise.HandlerEntity | src/widgets.rs:154-166 | A handler inserts no entity of its own. It returns the entity its child created and appends one click listener, on that entity's control, bound to the sender the child was given. |
| Materialise.ConnectEntity | src/widgets.rs:201-214 | A connection creates the parent first and the child second. It then puts the child's control into the parent's slot and returns the parent's entity. The two controls are distinct. |
| Materialise.ComponentEntity | src/widgets/component.rs:23-38 | A component ignores the incoming sender and opens a new, empty channel. It builds its view with that channel's sender. It then inserts exactly one entity holding the component's value, the view's root entity, the root control and the channel. That entity is returned and is distinct from the view's root entity. Everything else is exactly as the view's build left it: its entities, the control count, the channels and the log. |
| Materialise.FuelMonotone | src/widgets/component.rs:25 | Giving more nesting bound never changes a materialisation that succeeded. The bound only stands in for unbounded nesting of `view()` calls. |
| Materialise.StaticTree | src/widgets.rs:154-214 | A tree without components always materialises. It creates exactly as many entities and controls as it has buttons and groups, opens no channel, and binds every listener to the given sender. |
| Materialise.ListenersBound | src/widgets.rs:154-214 | Every listener registered while materialising a tree is bound either to the sender passed in or to a channel opened by a component inside that tree. The sender goes down unchanged to every descendant outside nested components. |
| Materialise.ComponentListenersPrivate | src/widgets/component.rs:23-25 | Every listener registered under a component is bound to that component's new channel or to one opened further down. None is bound to the sender passed to the component, whenever that sender names an existing channel. |
| Materialise.OnlyConstructs | src/widgets.rs:201-214 | Materialisation only creates, configures and attaches controls. It never destroys a control and never touches the window. |
| Materialise.MaterialisedRecordsFresh | src/widgets/component.rs:26-35 | Every entity materialisation inserts lacks a parent-control slot. Every component entity it inserts owns a channel opened during this call, and no two of them share one. |
| Materialise.CreateKeepsValid | src/widgets/component.rs:26-35 | Materialisation keeps every id held by every entity (control, view root and channel) pointing at something that exists. |
| Materialise.CreateKeepsPrivate | src/widgets/component.rs:24-35 | Materialisation keeps every component's channel its own and distinct from the root channel. |
| Runtime.Start | src/lib.rs:47-55 | The initial build keeps the root component and opens the root channel 0, left empty. It succeeds exactly when the root component's `view()` materialises, with channel 0 as its sender, into an empty world. The resulting world is that materialisation followed by installing the view's control as the window's child. |
| Runtime.StartInvariant | src/lib.rs:47-55 | After the initial build the store is valid and every component has a private channel, distinct from the root's. No entity has a parent-control slot. |
| Runtime.StartListeners | src/lib.rs:47-55 | The initial build binds the root view's listeners to the root channel, except those under nested components, which get channels of their own. |
| Runtime.RootStep | src/lib.rs:64-74 | With an empty root channel the root step does nothing. Otherwise it applies the oldest root event to the root component, and a type mismatch is fatal. When the edit succeeds, the step succeeds exactly when the `view()` of the edited root materialises with the root sender. The world is then that materialisation followed by installing the new view's control as the window's child. The old root controls are left alone. |
| Runtime.RootStepFrame | src/lib.rs:64-74 | The root step changes no channel except the root's, which loses exactly its oldest event when it had one. Every entity it adds has no parent-control slot, and it destroys no control. |
| Runtime.RootListeners | src/lib.rs:67-73 | Every root rebuild binds the new root view's listeners to the same root channel as the initial build, except those under nested components. |
| Runtime.RootClickRoundTrip | src/lib.rs:64-73 | When the root channel is idle, a click on a root-view button is consumed by the next root step. That step applies the clicked handler once to the root, or faults if the handler expects another type, and leaves the root channel empty again. |
| Runtime.DrainFrom | src/lib.rs:84-99 | The first pass keeps the number of entities and channels, the controls and the log. It records updates in strictly increasing entity order, each for an entity it visited. A type mismatch is the only fault. |
| Runtime.DrainSpec | src/lib.rs:86-99 | When components own their channels, the first pass matches only entities carrying all five components that have an event waiting. Each of those loses exactly its oldest event, which is applied to the stored state, and nothing else about it changes. Each update carries the entity's sender, old control, parent control and the view of the edited state. Every other entity is left alone. So is every channel that no drained entity uses, including the channels of components the query does not match and of matched components with nothing waiting. |
| Runtime.DrainControls | src/lib.rs:86-99 | The first pass records the old controls of exactly the pending entities, in entity order. |
| Runtime.ApplyUpdate | src/lib.rs:101-107 | One update succeeds exactly when its view materialises with the component's own sender. It then logs, after the construction, the attach of the new control to the parent and then the destroy of the old control. It stores the new control on the entity, and a missing entity is ignored. |
| Runtime.ApplyOne | src/lib.rs:102-106 | An update replaces its entity's control by a new one and changes nothing else about that entity or any other existing entity. It destroys exactly the old control, once, and does not touch the window. |
| Runtime.ApplySpec | src/lib.rs:101-107 | The second pass gives each updated entity a new control and changes nothing else of existing entities. It destroys the updates' old controls in update order, one destroy per update with repeats kept, and does not touch the window. |
| Runtime.TickInvariant | src/lib.rs:60-108 | A tick keeps the store valid, every component's channel private and the root channel distinct. It adds no parent-control slot. |
| Runtime.TickSpec | src/lib.rs:63-108 | In one tick the root channel loses at most its oldest event, and that event is what edited the root. Exactly the component entities pending at the start of the tick are re-rendered. Each applies exactly one event and gets a new control, with nothing else changed, and every other entity is unchanged. Every channel that existed before, other than the root's and the drained ones, is unchanged. The re-rendered entities' old controls are destroyed in entity order, one destroy per re-rendered entity with repeats kept. The window is updated before any destroy. |
| Runtime.NothingDrained | src/lib.rs:76-99 | In a world where no entity has a parent-control slot, the first pass matches nothing, records no update and changes nothing. |
| Runtime.TickIsRootStep | src/lib.rs:76-82 | When no entity has a parent-control slot, a tick is exactly its root step, and afterwards there is still no such slot. |
| Runtime.RunInvariant | src/lib.rs:47-108 | After the initial build and any number of ticks, the invariant holds and no entity has a parent-control slot. Nested components' channels are therefore never drained. |

## Left out

- Native `iui` calls are not modelled: control construction, `set_margined`, `set_child`, `on_clicked`, `destroy` and the window. They become abstract control ids and entries of an action log. Which native object a control id denotes is not modelled.
- `Fragile` thread confinement and the `mpsc` channels' threading are not modelled. Everything runs on one thread, so each channel is a FIFO sequence, and one id names both its sender and its receiver.
- `legion` internals are not modelled. The world is an arena with fresh ids, and entities are never removed.
- The query's iteration order is not modelled: `legion` leaves it unspecified, and the model visits matched entities in ascending id order.
- `App::new`, `window.show`, `event_loop.run` and examples/basic.rs are not modelled. They are bootstrap code with no framework logic.
- src/widgets/horizontal_box.rs is not modelled. It relies on `Parent`, `ConnectChildren`, `ParentControl` and `Hlist!`, which are defined in none of the files modelled, so a model of it would be invention.
- The `codegen::view` macro is not part of this model.
- Open-ended type erasure (`as_any`, `Box<dyn Component>`) is not modelled. Widget types form a closed datatype. A component is a type tag with a value, and a handler is a type tag with a code number. The downcast is modelled as a type-tag comparison.
- `box_clone`, called on the parent control at src/lib.rs:96, is not declared by `SingleChildParentControl` (src/widgets.rs:177-179). The model takes it to copy the parent's control id.
- `ComponentWidget::state` clones the wrapped value. Under value semantics, that the later edits cannot reach the widget value holds by construction, so no lemma states it.
- Materialise.CreateEntity: a component's `view()` may nest components without bound. The recursion carries a nesting bound ("fuel"), and an exhausted bound yields `Diverged` in place of the source's non-termination. `Materialise.FuelMonotone` shows the bound never changes a successful result.
- Equality.ComponentEquality: a component type's own `PartialEq` is taken to be structural equality of its value. The source derives it only for `ComponentWidget` itself and leaves the component's impl to the application.
- Runtime.TickSpec: it does not state that the channels opened during the tick are still empty at its end. `Materialise.CreateEntity` states this for each build on its own.
- Widget trees the Rust trait bounds reject are not excluded. A `Handler` is a widget only around a control that listens for events (src/widgets.rs:144-149), which only `Button` does (src/widgets/button.rs:36). A `ConnectSingleChild` needs a `SingleChildParent` parent (src/widgets.rs:191-196), which only `Group` is (src/widgets/group.rs:8). The datatype admits other shapes, and every lemma holds for them as well.
- Store.Send: an `mpsc` send fails only when the receiver is dropped. That never happens here, because entities are never removed, so the modelled failure is a send to a channel id that does not exist.

=== FILE: base.dfy ===
/** Identifiers and failure-compatible wrappers shared by the whole model. */
module Base {

  /** An entity of the entity store: an index into its arena. */
  type EntityId = nat

  /** An abstract native control handle, allocated fresh by the backend. */
  type ControlId = nat

  /** An event channel; sender and receiver of one channel share its id. */
  type QueueId = nat

  /** Names one concrete Rust type (a component type, or a handler's `SelfTy`). */
  type TypeTag = nat

  datatype Option<+T> = None | Some(value: T)

  /** The two ways the source aborts: a failed downcast `unwrap` (a panic), and a
      `view()` chain that nests components without end (a stack overflow). */
  datatype Fault = DowncastPanic | Diverged

  datatype Result<+T> = Ok(value: T) | Err(error: Fault) {

    predicate IsFailure() {
      Err?
    }

    function PropagateFailure<U>(): Result<U>
      requires Err?
    {
      Err(error)
    }

    function Extract(): T
      requires Ok?
    {
      value
    }
  }
}

=== FILE: equality.dfy ===
/** What the boxed widget equality of `dyn BoxedPrimitiveWidget` decides, and
    how the per-type quirks of `Handler` and `ConnectSingleChild` show through. */
module Equality {
  import opened Base
  import opened Widgets

  /** Every widget is equal to itself, so equality on widget values is no finer
      than structural equality. */
  lemma {:induction false} BoxedEqReflexive(a: Widget)
    ensures BoxedEq(a, a)
  {
    match a
    case Handler(_, _, c) => BoxedEqReflexive(c);
    case ConnectSingleChild(p, _) => BoxedEqReflexive(p);
    case _ =>
  }

  lemma {:induction false} BoxedEqSymmetric(a: Widget, b: Widget)
    ensures BoxedEq(a, b) <==> BoxedEq(b, a)
  {
    match (a, b)
    case (Handler(_, _, c1), Handler(_, _, c2)) => BoxedEqSymmetric(c1, c2);
    case (ConnectSingleChild(p1, _), ConnectSingleChild(p2, _)) => BoxedEqSymmetric(p1, p2);
    case _ =>
  }

  lemma {:induction false} BoxedEqTransitive(a: Widget, b: Widget, c: Widget)
    requires BoxedEq(a, b) && BoxedEq(b, c)
    ensures BoxedEq(a, c)
  {
    match (a, b, c)
    case (Handler(_, _, c1), Handler(_, _, c2), Handler(_, _, c3)) =>
      BoxedEqTransitive(c1, c2, c3);
    case (ConnectSingleChild(p1, _), ConnectSingleChild(p2, _), ConnectSingleChild(p3, _)) =>
      BoxedEqTransitive(p1, p2, p3);
    case _ =>
  }

  /** Boxed equality holds exactly when both values have the same concrete type
      and that type's `PartialEq` says they are equal, whichever side is asked;
      values of different types are never equal. */
  lemma BoxedEqIsTypedEq(a: Widget, b: Widget)
    ensures BoxedEq(a, b) <==> TypeOf(a) == TypeOf(b) && PartialEq(a, b)
    ensures TypeOf(a) != TypeOf(b) ==> !BoxedEq(a, b)
  {
    BoxedEqSymmetric(a, b);
  }

  /** Buttons compare by their text. */
  lemma ButtonEquality(a: Widget, b: Widget)
    requires a.Button?
    ensures BoxedEq(a, b) <==> b.Button? && b.text == a.text
  {
  }

  /** Groups compare by their title and their margin. */
  lemma GroupEquality(a: Widget, b: Widget)
    requires a.Group?
    ensures BoxedEq(a, b) <==> b.Group? && b.title == a.title && b.margined == a.margined
  {
  }

  /** Component widgets compare the wrapped component value. */
  lemma ComponentEquality(a: Widget, b: Widget)
    requires a.ComponentWidget?
    ensures BoxedEq(a, b) <==> b.ComponentWidget? && b.component == a.component
  {
  }

  /** Two handlers are equal exactly when they expect the same component type
      and wrap equal children: the handler function and the event are ignored. */
  lemma HandlerEquality(a: Widget, b: Widget)
    requires a.Handler? && b.Handler?
    ensures BoxedEq(a, b) <==> a.handler.selfTy == b.handler.selfTy && BoxedEq(a.child, b.child)
  {
    BoxedEqIsTypedEq(a.child, b.child);
  }

  /** Two parent-child connections are equal exactly when their children have
      the same type and their parents are equal: the child's value is ignored. */
  lemma ConnectEquality(a: Widget, b: Widget)
    requires a.ConnectSingleChild? && b.ConnectSingleChild?
    ensures BoxedEq(a, b) <==> TypeOf(a.child) == TypeOf(b.child) && BoxedEq(a.parent, b.parent)
  {
    BoxedEqIsTypedEq(a.parent, b.parent);
  }

  /** `b.on_clicked(h1) == b.on_clicked(h2)` for every pair of handlers of one
      component type, and for no pair of handlers of different types. */
  lemma {:induction false} OnClickedEquality(b: Widget, h1: HandlerFn, h2: HandlerFn)
    requires b.Button?
    ensures BoxedEq(OnClicked(b, h1), OnClicked(b, h2)) <==> h1.selfTy == h2.selfTy
  {
    BoxedEqReflexive(b);
  }

  /** `g1.child(c1) == g2.child(c2)` exactly when the groups are equal and the
      children have the same type, whatever the children's values. */
  lemma GroupChildEquality(g1: Widget, g2: Widget, c1: Widget, c2: Widget)
    requires g1.Group? && g2.Group?
    ensures BoxedEq(Child(g1, c1), Child(g2, c2)) <==> BoxedEq(g1, g2) && TypeOf(c1) == TypeOf(c2)
  {
    ConnectEquality(Child(g1, c1), Child(g2, c2));
  }

  /** Boxed equality is strictly coarser than structural equality: a group with
      two different buttons as child compares equal. */
  lemma ChildIsIgnored()
    ensures var g := Group("Hello", true);
            var a := Child(g, Button("world!"));
            var b := Child(g, Button("there!"));
            a != b && BoxedEq(a, b)
  {
  }
}

=== FILE: materialise.dfy ===
/** Materialisation of a widget value into the entity store: `create_entity` of
    every widget type and `create_typed_control` / `create_control`.

    A component's `view` is application code and may nest components without
    bound, so the recursion is given `fuel`, spent once per component level; an
    exhausted fuel stands for the source's unbounded recursion (`Diverged`). */
module Materialise {
  import opened Base
  import opened Widgets
  import opened Store

  datatype Built = Built(entity: EntityId, world: World)

  datatype BuiltControl = BuiltControl(entity: EntityId, control: ControlId, world: World)

  /** True when no component appears in the tree, so that its materialisation
      never calls application code. */
  predicate ComponentFree(w: Widget) {
    match w
    case Button(_) => true
    case Group(_, _) => true
    case Handler(_, _, c) => ComponentFree(c)
    case ConnectSingleChild(p, c) => ComponentFree(p) && ComponentFree(c)
    case ComponentWidget(_) => false
  }

  /** The number of native controls a component-free tree consists of. */
  function LeafCount(w: Widget): nat
    requires ComponentFree(w)
  {
    match w
    case Button(_) => 1
    case Group(_, _) => 1
    case Handler(_, _, c) => LeafCount(c)
    case ConnectSingleChild(p, c) => LeafCount(p) + LeafCount(c)
  }

  /** `PrimitiveWidget::create_entity`, dispatched on the widget's type. Only
      `Button` and `Group` create native controls and only they and
      `ComponentWidget` insert entities; `Handler` and `ConnectSingleChild`
      decorate what their children created. */
  function CreateEntity(p: Program, w: Widget, world: World, sender: QueueId, fuel: nat): (r: Result<Built>)
    decreases fuel, w, 0
    ensures r.Err? ==> r.error == Diverged && !ComponentFree(w)
    ensures r.Ok? ==> Extends(world, r.value.world)
    ensures r.Ok? ==> |world.entities| <= r.value.entity < |r.value.world.entities|
    ensures r.Ok? ==> world.controls <= r.value.world.entities[r.value.entity].control < r.value.world.controls
  {
    match w
    case Button(text) =>
      var c := world.controls;
      Ok(Built(|world.entities|, world.(
        entities := world.entities + [Record(Some(w), c, None, None)],
        controls := c + 1,
        log := world.log + [NewButton(c, text)])))
    case Group(title, margined) =>
      var c := world.controls;
      Ok(Built(|world.entities|, world.(
        entities := world.entities + [Record(Some(w), c, None, None)],
        controls := c + 1,
        log := world.log + [NewGroup(c, title), SetMargined(c, margined)])))
    case Handler(handler, _, child) =>
      var b :- CreateEntity(p, child, world, sender, fuel);
      var control := b.world.entities[b.entity].control;
      Ok(Built(b.entity, b.world.(log := b.world.log + [OnClicked(control, handler, sender)])))
    case ConnectSingleChild(parent, child) =>
      var pb :- CreateEntity(p, parent, world, sender, fuel);
      var cb :- CreateEntity(p, child, pb.world, sender, fuel);
      var parentControl := cb.world.entities[pb.entity].control;
      var childControl := cb.world.entities[cb.entity].control;
      Ok(Built(pb.entity, cb.world.(log := cb.world.log + [SetChild(parentControl, childControl)])))
    case ComponentWidget(c) =>
      if fuel == 0 then Err(Diverged)
      else
        var q := |world.queues|;
        var root :- CreateControl(p, p.view(c), world.(queues := world.queues + [[]]), q, fuel - 1);
        var rec := Record(None, root.control, Some(ComponentRecord(c, root.entity, q)), None);
        Ok(Built(|root.world.entities|, root.world.(entities := root.world.entities + [rec])))
  }

  /** `create_typed_control` (and `create_control`, which only converts the
      control): materialise, then fetch the control stored on the returned
      entity. The fetch's `unwrap` never fails. */
  function CreateControl(p: Program, w: Widget, world: World, sender: QueueId, fuel: nat): (r: Result<BuiltControl>)
    decreases fuel, w, 1
    ensures r.Ok? <==> CreateEntity(p, w, world, sender, fuel).Ok?
    ensures r.Ok? ==>
              var b := CreateEntity(p, w, world, sender, fuel).value;
              && r.value.entity == b.entity && r.value.world == b.world
              && r.value.entity < |r.value.world.entities|
              && r.value.control == r.value.world.entities[r.value.entity].control
  {
    var b :- CreateEntity(p, w, world, sender, fuel);
    Ok(BuiltControl(b.entity, b.world.entities[b.entity].control, b.world))
  }

  /** Every listener appended to `log` from position `from` on is bound to
      `sender` or to a channel numbered in `lo .. hi`. */
  predicate ListenersTarget(log: seq<Action>, from: nat, sender: QueueId, lo: nat, hi: nat) {
    forall k :: from <= k < |log| && log[k].OnClicked? ==> log[k].queue == sender || lo <= log[k].queue < hi
  }

  /** The log appended from `from` on holds only construction: no control is
      destroyed and nothing is installed in the window. */
  predicate OnlyConstruction(log: seq<Action>, from: nat) {
    forall k :: from <= k < |log| ==> !log[k].Destroy? && !log[k].WindowSetChild?
  }

  /** A `Button` inserts one entity holding a clone of the button and a new
      control made from its text; the sender is not used. */
  lemma ButtonEntity(p: Program, w: Widget, world: World, sender: QueueId, fuel: nat)
    requires w.Button?
    ensures var r := CreateEntity(p, w, world, sender, fuel);
            && r.Ok? && r.value.entity == |world.entities| && |r.value.world.entities| == |world.entities| + 1
            && r.value.world.entities[r.value.entity] == Record(Some(w), world.controls, None, None)
            && r.value.world.log == world.log + [NewButton(world.controls, w.text)]
            && r.value.world.queues == world.queues
            && (forall s :: CreateEntity(p, w, world, s, fuel) == r)
  {
  }

  /** A `Group` inserts one entity holding a clone of the group and a new
      control made from its title, whose margin is then set from `margined`; the
      sender is not used. */
  lemma GroupEntity(p: Program, w: Widget, world: World, sender: QueueId, fuel: nat)
    requires w.Group?
    ensures var r := CreateEntity(p, w, world, sender, fuel);
            && r.Ok? && r.value.entity == |world.entities| && |r.value.world.entities| == |world.entities| + 1
            && r.value.world.entities[r.value.entity] == Record(Some(w), world.controls, None, None)
            && r.value.world.log == world.log + [NewGroup(world.controls, w.title), SetMargined(world.controls, w.margined)]
            && r.value.world.queues == world.queues
            && (forall s :: CreateEntity(p, w, world, s, fuel) == r)
  {
  }

  /** A `Handler` inserts no entity of its own: it returns the entity its child
      created, and registers one click listener on that entity's control, bound
      to the sender it was given (the same one the child got). */
  lemma HandlerEntity(p: Program, w: Widget, world: World, sender: QueueId, fuel: nat)
    requires w.Handler?
    ensures var r := CreateEntity(p, w, world, sender, fuel);
            var b := CreateEntity(p, w.child, world, sender, fuel);
            && (r.Ok? <==> b.Ok?)
            && (r.Ok? ==>
                  && r.value.entity == b.value.entity
                  && r.value.world.entities == b.value.world.entities
                  && r.value.world.queues == b.value.world.queues
                  && r.value.world.log == b.value.world.log
                       + [OnClicked(b.value.world.entities[b.value.entity].control, w.handler, sender)])
  {
  }

  /** A `ConnectSingleChild` creates the parent's entities, then the child's,
      both with the sender it was given, then puts the child's control into the
      parent's single child slot, and returns the parent's entity. */
  lemma ConnectEntity(p: Program, w: Widget, world: World, sender: QueueId, fuel: nat)
    requires w.ConnectSingleChild?
    ensures var r := CreateEntity(p, w, world, sender, fuel);
            var pb := CreateEntity(p, w.parent, world, sender, fuel);
            && (r.Ok? <==> pb.Ok? && CreateEntity(p, w.child, pb.value.world, sender, fuel).Ok?)
            && (r.Ok? ==>
                  var cb := CreateEntity(p, w.child, pb.value.world, sender, fuel).value;
                  var parentControl := pb.value.world.entities[pb.value.entity].control;
                  var childControl := cb.world.entities[cb.entity].control;
                  && r.value.entity == pb.value.entity
                  && pb.value.entity < |pb.value.world.entities| <= cb.entity
                  && r.value.world.entities == cb.world.entities
                  && r.value.world.log == cb.world.log + [SetChild(parentControl, childControl)]
                  && parentControl != childControl)
  {
  }

  /** A `ComponentWidget` ignores the sender it was given: it opens a fresh
      channel, materialises its `view()` with that channel's sender, and then
      inserts exactly one entity of its own holding a copy of the component,
      the view's root entity, the root control and the channel. That entity is
      the one returned, and it is not the view's root entity. */
  lemma ComponentEntity(p: Program, w: Widget, world: World, sender: QueueId, fuel: nat)
    requires w.ComponentWidget?
    ensures var r := CreateEntity(p, w, world, sender, fuel);
            var q := |world.queues|;
            && (fuel == 0 ==> r.Err?)
            && (fuel > 0 ==>
                  var v := CreateControl(p, p.view(w.component), world.(queues := world.queues + [[]]), q, fuel - 1);
                  && (r.Ok? <==> v.Ok?)
                  && (r.Ok? ==>
                        && r.value.entity == |v.value.world.entities|
                        && |r.value.world.entities| == |v.value.world.entities| + 1
                        && r.value.entity != v.value.entity
                        && r.value.world.entities[r.value.entity]
                             == Record(None, v.value.control, Some(ComponentRecord(w.component, v.value.entity, q)), None)
                        && q < |r.value.world.queues| && r.value.world.queues[q] == []
                        && r.value.world.log == v.value.world.log
                        && r.value.world == v.value.world.(entities := v.value.world.entities
                             + [Record(None, v.value.control, Some(ComponentRecord(w.component, v.value.entity, q)), None)])))
  {
  }

  /** More fuel never changes a materialisation that succeeded: the fuel only
      bounds how deeply components nest, it does not alter the result. */
  lemma {:induction false} FuelMonotone(p: Program, w: Widget, world: World, sender: QueueId, fuel: nat)
    requires CreateEntity(p, w, world, sender, fuel).Ok?
    ensures CreateEntity(p, w, world, sender, fuel + 1) == CreateEntity(p, w, world, sender, fuel)
    decreases fuel, w, 1
  {
    match w
    case Button(_) =>
    case Group(_, _) =>
    case Handler(_, _, child) =>
      FuelMonotone(p, child, world, sender, fuel);
      FuelHandler(p, w, world, sender, fuel);
    case ConnectSingleChild(parent, child) =>
      FuelMonotone(p, parent, world, sender, fuel);
      var pb := CreateEntity(p, parent, world, sender, fuel).value;
      FuelMonotone(p, child, pb.world, sender, fuel);
      FuelConnect(p, w, world, sender, fuel);
    case ComponentWidget(c) =>
      FuelComponent(p, w, world, sender, fuel);
  }

  lemma FuelHandler(p: Program, w: Widget, world: World, sender: QueueId, fuel: nat)
    requires w.Handler? && CreateEntity(p, w, world, sender, fuel).Ok?
    requires CreateEntity(p, w.child, world, sender, fuel + 1) == CreateEntity(p, w.child, world, sender, fuel)
    ensures CreateEntity(p, w, world, sender, fuel + 1) == CreateEntity(p, w, world, sender, fuel)
  {
  }

  lemma FuelConnect(p: Program, w: Widget, world: World, sender: QueueId, fuel: nat)
    requires w.ConnectSingleChild? && CreateEntity(p, w, world, sender, fuel).Ok?
    requires CreateEntity(p, w.parent, world, sender, fuel + 1) == CreateEntity(p, w.parent, world, sender, fuel)
    requires var pb := CreateEntity(p, w.parent, world, sender, fuel).value;
             CreateEntity(p, w.child, pb.world, sender, fuel + 1) == CreateEntity(p, w.child, pb.world, sender, fuel)
    ensures CreateEntity(p, w, world, sender, fuel + 1) == CreateEntity(p, w, world, sender, fuel)
  {
  }

  lemma FuelComponent(p: Program, w: Widget, world: World, sender: QueueId, fuel: nat)
    requires w.ComponentWidget? && CreateEntity(p, w, world, sender, fuel).Ok?
    ensures CreateEntity(p, w, world, sender, fuel + 1) == CreateEntity(p, w, world, sender, fuel)
    decreases fuel, w, 0
  {
    ComponentViewOk(p, w, world, sender, fuel);
    var n: nat := fuel - 1;
    FuelMonotone(p, p.view(w.component), world.(queues := world.queues + [[]]), |world.queues|, n);
    FuelComponentStep(p, w, world, sender, n);
  }

  /** A component materialised only if its view did, one level of fuel down. */
  lemma ComponentViewOk(p: Program, w: Widget, world: World, sender: QueueId, fuel: nat)
    requires w.ComponentWidget? && CreateEntity(p, w, world, sender, fuel).Ok?
    ensures fuel > 0 && CreateEntity(p, p.view(w.component), world.(queues := world.queues + [[]]), |world.queues|, fuel - 1).Ok?
  {
  }

  lemma FuelComponentStep(p: Program, w: Widget, world: World, sender: QueueId, n: nat)
    requires w.ComponentWidget? && CreateEntity(p, w, world, sender, n + 1).Ok?
    requires var world1 := world.(queues := world.queues + [[]]);
             CreateEntity(p, p.view(w.component), world1, |world.queues|, n + 1) ==
             CreateEntity(p, p.view(w.component), world1, |world.queues|, n)
    ensures CreateEntity(p, w, world, sender, n + 2) == CreateEntity(p, w, world, sender, n + 1)
  {
    var world1 := world.(queues := world.queues + [[]]);
    var v := p.view(w.component);
    assert CreateControl(p, v, world1, |world.queues|, n + 1) == CreateControl(p, v, world1, |world.queues|, n);
  }

  /** A component-free tree always materialises. It inserts one entity and
      creates one control per button or group, opens no channel, and binds
      every listener it registers to the sender it was given. */
  lemma {:induction false} StaticTree(p: Program, w: Widget, world: World, sender: QueueId, fuel: nat)
    requires ComponentFree(w)
    ensures var r := CreateEntity(p, w, world, sender, fuel);
            && r.Ok?
            && |r.value.world.entities| == |world.entities| + LeafCount(w)
            && r.value.world.controls == world.controls + LeafCount(w)
            && r.value.world.queues == world.queues
            && ListenersTarget(r.value.world.log, |world.log|, sender, 0, 0)
  {
    match w
    case Button(_) =>
    case Group(_, _) =>
    case Handler(_, _, child) =>
      StaticTree(p, child, world, sender, fuel);
    case ConnectSingleChild(parent, child) =>
      StaticTree(p, parent, world, sender, fuel);
      var pb := CreateEntity(p, parent, world, sender, fuel).value;
      StaticTree(p, child, pb.world, sender, fuel);
  }

  /** Every listener registered while materialising a tree is bound to the
      sender passed in, or to a channel opened by a component inside the tree. */
  lemma {:induction false} ListenersBound(p: Program, w: Widget, world: World, sender: QueueId, fuel: nat)
    ensures var r := CreateEntity(p, w, world, sender, fuel);
            r.Ok? ==> ListenersTarget(r.value.world.log, |world.log|, sender, |world.queues|, |r.value.world.queues|)
    decreases fuel, w, 1
  {
    match w
    case Button(_) =>
    case Group(_, _) =>
    case Handler(_, _, child) =>
      ListenersBound(p, child, world, sender, fuel);
      ListenersHandler(p, w, world, sender, fuel);
    case ConnectSingleChild(parent, child) =>
      ListenersBound(p, parent, world, sender, fuel);
      var pr := CreateEntity(p, parent, world, sender, fuel);
      if pr.Ok? {
        ListenersBound(p, child, pr.value.world, sender, fuel);
      }
      ListenersConnect(p, w, world, sender, fuel);
    case ComponentWidget(c) =>
      ListenersComponent(p, w, world, sender, fuel);
  }

  lemma ListenersHandler(p: Program, w: Widget, world: World, sender: QueueId, fuel: nat)
    requires w.Handler?
    requires var b := CreateEntity(p, w.child, world, sender, fuel);
             b.Ok? ==> ListenersTarget(b.value.world.log, |world.log|, sender, |world.queues|, |b.value.world.queues|)
    ensures var r := CreateEntity(p, w, world, sender, fuel);
            r.Ok? ==> ListenersTarget(r.value.world.log, |world.log|, sender, |world.queues|, |r.value.world.queues|)
  {
    var b := CreateEntity(p, w.child, world, sender, fuel);
    if b.Ok? {
      var bw := b.value.world;
      TargetChain(bw.log, bw.log, |world.log|, sender, |world.queues|, |bw.queues|, |bw.queues|,
        [OnClicked(bw.entities[b.value.entity].control, w.handler, sender)]);
    }
  }

  lemma ListenersConnect(p: Program, w: Widget, world: World, sender: QueueId, fuel: nat)
    requires w.ConnectSingleChild?
    requires var pb := CreateEntity(p, w.parent, world, sender, fuel);
             pb.Ok? ==>
               && ListenersTarget(pb.value.world.log, |world.log|, sender, |world.queues|, |pb.value.world.queues|)
               && var cb := CreateEntity(p, w.child, pb.value.world, sender, fuel);
                  cb.Ok? ==> ListenersTarget(cb.value.world.log, |pb.value.world.log|, sender, |pb.value.world.queues|, |cb.value.world.queues|)
    ensures var r := CreateEntity(p, w, world, sender, fuel);
            r.Ok? ==> ListenersTarget(r.value.world.log, |world.log|, sender, |world.queues|, |r.value.world.queues|)
  {
    var pb := CreateEntity(p, w.parent, world, sender, fuel);
    if pb.Ok? {
      var cb := CreateEntity(p, w.child, pb.value.world, sender, fuel);
      if cb.Ok? {
        var pw := pb.value.world;
        var cw := cb.value.world;
        TargetChain(pw.log, cw.log, |world.log|, sender, |world.queues|, |pw.queues|, |cw.queues|,
          [SetChild(cw.entities[pb.value.entity].control, cw.entities[cb.value.entity].control)]);
      }
    }
  }

  /** Listener bindings of two stretches of log, one after the other, plus a
      tail that registers listeners on `sender` only. */
  lemma TargetChain(log1: seq<Action>, log2: seq<Action>, from: nat, sender: QueueId, lo: nat, mid: nat, hi: nat, extra: seq<Action>)
    requires from <= |log1| && log1 <= log2 && lo <= mid <= hi
    requires ListenersTarget(log1, from, sender, lo, mid) && ListenersTarget(log2, |log1|, sender, mid, hi)
    requires forall k :: 0 <= k < |extra| ==> extra[k].OnClicked? ==> extra[k].queue == sender
    ensures ListenersTarget(log2 + extra, from, sender, lo, hi)
  {
    var log := log2 + extra;
    forall k | from <= k < |log| && log[k].OnClicked?
      ensures log[k].queue == sender || lo <= log[k].queue < hi
    {
      if k < |log1| {
        assert log[k] == log2[k] == log1[k];
      } else if k < |log2| {
        assert log[k] == log2[k];
      } else {
        assert log[k] == extra[k - |log2|];
      }
    }
  }

  lemma ListenersComponent(p: Program, w: Widget, world: World, sender: QueueId, fuel: nat)
    requires w.ComponentWidget?
    ensures var r := CreateEntity(p, w, world, sender, fuel);
            r.Ok? ==> ListenersTarget(r.value.world.log, |world.log|, sender, |world.queues|, |r.value.world.queues|)
    decreases fuel, w, 0
  {
    if fuel > 0 {
      ListenersBound(p, p.view(w.component), world.(queues := world.queues + [[]]), |world.queues|, fuel - 1);
    }
  }

  /** Every listener inside a component's view goes to a channel the component
      opened, never to the sender the component itself was given. */
  lemma ComponentListenersPrivate(p: Program, w: Widget, world: World, sender: QueueId, fuel: nat)
    requires w.ComponentWidget?
    ensures var r := CreateEntity(p, w, world, sender, fuel);
            r.Ok? ==> ListenersTarget(r.value.world.log, |world.log|, |world.queues|, |world.queues|, |r.value.world.queues|)
    ensures var r := CreateEntity(p, w, world, sender, fuel);
            r.Ok? && sender < |world.queues| ==>
              forall k :: |world.log| <= k < |r.value.world.log| && r.value.world.log[k].OnClicked? ==>
                r.value.world.log[k].queue != sender
  {
    if fuel > 0 {
      ListenersBound(p, p.view(w.component), world.(queues := world.queues + [[]]), |world.queues|, fuel - 1);
    }
  }

  /** Materialising only constructs: it never destroys a control and never
      touches the window. */
  lemma {:induction false} OnlyConstructs(p: Program, w: Widget, world: World, sender: QueueId, fuel: nat)
    ensures var r := CreateEntity(p, w, world, sender, fuel);
            r.Ok? ==> OnlyConstruction(r.value.world.log, |world.log|)
    decreases fuel, w, 1
  {
    match w
    case Button(_) =>
    case Group(_, _) =>
    case Handler(_, _, child) =>
      OnlyConstructs(p, child, world, sender, fuel);
      OnlyConstructsHandler(p, w, world, sender, fuel);
    case ConnectSingleChild(parent, child) =>
      OnlyConstructsConnect(p, w, world, sender, fuel);
    case ComponentWidget(c) =>
      OnlyConstructsComponent(p, w, world, sender, fuel);
  }

  lemma OnlyConstructsHandler(p: Program, w: Widget, world: World, sender: QueueId, fuel: nat)
    requires w.Handler?
    requires var b := CreateEntity(p, w.child, world, sender, fuel);
             b.Ok? ==> OnlyConstruction(b.value.world.log, |world.log|)
    ensures var r := CreateEntity(p, w, world, sender, fuel);
            r.Ok? ==> OnlyConstruction(r.value.world.log, |world.log|)
  {
  }

  lemma OnlyConstructsConnect(p: Program, w: Widget, world: World, sender: QueueId, fuel: nat)
    requires w.ConnectSingleChild?
    ensures var r := CreateEntity(p, w, world, sender, fuel);
            r.Ok? ==> OnlyConstruction(r.value.world.log, |world.log|)
    decreases fuel, w, 0
  {
    var pr := CreateEntity(p, w.parent, world, sender, fuel);
    if pr.Ok? {
      OnlyConstructs(p, w.parent, world, sender, fuel);
      OnlyConstructs(p, w.child, pr.value.world, sender, fuel);
    }
  }

  lemma OnlyConstructsComponent(p: Program, w: Widget, world: World, sender: QueueId, fuel: nat)
    requires w.ComponentWidget?
    ensures var r := CreateEntity(p, w, world, sender, fuel);
            r.Ok? ==> OnlyConstruction(r.value.world.log, |world.log|)
    decreases fuel, w, 0
  {
    if fuel > 0 {
      OnlyConstructs(p, p.view(w.component), world.(queues := world.queues + [[]]), |world.queues|, fuel - 1);
    }
  }


  /** What the entities inserted between `w` and `w'` look like: none carries a
      parent-control slot, and the components among them own pairwise distinct
      channels, all opened between `w` and `w'`. */
  predicate FreshRecords(w: World, w': World)
    requires Extends(w, w')
  {
    && (forall k :: |w.entities| <= k < |w'.entities| ==> w'.entities[k].parentControl.None?)
    && (forall k :: |w.entities| <= k < |w'.entities| && w'.entities[k].component.Some? ==>
          |w.queues| <= w'.entities[k].component.value.queue < |w'.queues|)
    && (forall i, j ::
          (|w.entities| <= i < j < |w'.entities| && w'.entities[i].component.Some? && w'.entities[j].component.Some?) ==>
          w'.entities[i].component.value.queue != w'.entities[j].component.value.queue)
  }

  /** No materialised entity gets a parent-control slot, and every component
      materialised gets a channel of its own. */
  lemma {:induction false} MaterialisedRecordsFresh(p: Program, w: Widget, world: World, sender: QueueId, fuel: nat)
    ensures var r := CreateEntity(p, w, world, sender, fuel);
            r.Ok? ==> FreshRecords(world, r.value.world)
    decreases fuel, w, 1
  {
    match w
    case Button(_) =>
      LeafRecordsFresh(p, w, world, sender, fuel);
    case Group(_, _) =>
      LeafRecordsFresh(p, w, world, sender, fuel);
    case Handler(_, _, child) =>
      MaterialisedRecordsFresh(p, child, world, sender, fuel);
      HandlerRecordsFresh(p, w, world, sender, fuel);
    case ConnectSingleChild(parent, child) =>
      ConnectRecordsFreshRec(p, w, world, sender, fuel);
    case ComponentWidget(c) =>
      ComponentRecordsFreshRec(p, w, world, sender, fuel);
  }

  lemma ConnectRecordsFreshRec(p: Program, w: Widget, world: World, sender: QueueId, fuel: nat)
    requires w.ConnectSingleChild?
    ensures var r := CreateEntity(p, w, world, sender, fuel);
            r.Ok? ==> FreshRecords(world, r.value.world)
    decreases fuel, w, 0
  {
    var pr := CreateEntity(p, w.parent, world, sender, fuel);
    if pr.Ok? {
      MaterialisedRecordsFresh(p, w.parent, world, sender, fuel);
      MaterialisedRecordsFresh(p, w.child, pr.value.world, sender, fuel);
      ConnectRecordsFresh(p, w, world, sender, fuel);
    }
  }

  lemma ComponentRecordsFreshRec(p: Program, w: Widget, world: World, sender: QueueId, fuel: nat)
    requires w.ComponentWidget?
    ensures var r := CreateEntity(p, w, world, sender, fuel);
            r.Ok? ==> FreshRecords(world, r.value.world)
    decreases fuel, w, 0
  {
    if fuel > 0 {
      MaterialisedRecordsFresh(p, p.view(w.component), world.(queues := world.queues + [[]]), |world.queues|, fuel - 1);
      ComponentRecordsFresh(p, w, world, sender, fuel);
    }
  }


  lemma LeafRecordsFresh(p: Program, w: Widget, world: World, sender: QueueId, fuel: nat)
    requires w.Button? || w.Group?
    ensures FreshRecords(world, CreateEntity(p, w, world, sender, fuel).value.world)
  {
  }

  lemma HandlerRecordsFresh(p: Program, w: Widget, world: World, sender: QueueId, fuel: nat)
    requires w.Handler?
    requires var b := CreateEntity(p, w.child, world, sender, fuel);
             b.Ok? ==> FreshRecords(world, b.value.world)
    ensures var r := CreateEntity(p, w, world, sender, fuel);
            r.Ok? ==> FreshRecords(world, r.value.world)
  {
    var r := CreateEntity(p, w, world, sender, fuel);
    if r.Ok? {
      var b := CreateEntity(p, w.child, world, sender, fuel).value;
      assert r.value.world.entities == b.world.entities && r.value.world.queues == b.world.queues;
    }
  }

  /** Two stretches of fresh records in a row make one. */
  lemma FreshRecordsChain(w0: World, w1: World, w2: World)
    requires Extends(w0, w1) && Extends(w1, w2) && Extends(w0, w2)
    requires FreshRecords(w0, w1) && FreshRecords(w1, w2)
    ensures FreshRecords(w0, w2)
  {
    assert forall k :: |w0.entities| <= k < |w1.entities| ==> w2.entities[k] == w1.entities[k] by {
      forall k | |w0.entities| <= k < |w1.entities| ensures w2.entities[k] == w1.entities[k] {
        assert w2.entities[k] == w2.entities[..|w1.entities|][k];
      }
    }
  }

  lemma ConnectRecordsFresh(p: Program, w: Widget, world: World, sender: QueueId, fuel: nat)
    requires w.ConnectSingleChild?
    requires var pb := CreateEntity(p, w.parent, world, sender, fuel);
             pb.Ok? && FreshRecords(world, pb.value.world) &&
             var cb := CreateEntity(p, w.child, pb.value.world, sender, fuel);
             cb.Ok? ==> FreshRecords(pb.value.world, cb.value.world)
    ensures var r := CreateEntity(p, w, world, sender, fuel);
            r.Ok? ==> FreshRecords(world, r.value.world)
  {
    var r := CreateEntity(p, w, world, sender, fuel);
    if r.Ok? {
      var pb := CreateEntity(p, w.parent, world, sender, fuel).value;
      var cb := CreateEntity(p, w.child, pb.world, sender, fuel).value;
      FreshRecordsChain(world, pb.world, cb.world);
      assert r.value.world.entities == cb.world.entities;
    }
  }

  lemma ComponentRecordsFresh(p: Program, w: Widget, world: World, sender: QueueId, fuel: nat)
    requires w.ComponentWidget? && fuel > 0
    requires var world1 := world.(queues := world.queues + [[]]);
             var v := CreateEntity(p, p.view(w.component), world1, |world.queues|, fuel - 1);
             v.Ok? ==> FreshRecords(world1, v.value.world)
    ensures var r := CreateEntity(p, w, world, sender, fuel);
            r.Ok? ==> FreshRecords(world, r.value.world)
  {
    var r := CreateEntity(p, w, world, sender, fuel);
    if r.Ok? {
      var world1 := world.(queues := world.queues + [[]]);
      var v := CreateEntity(p, p.view(w.component), world1, |world.queues|, fuel - 1).value;
      var n := |v.world.entities|;
      assert forall k :: |world.entities| <= k < n ==> r.value.world.entities[k] == v.world.entities[k];
      assert r.value.world.entities[n].component.value.queue == |world.queues|;
    }
  }

  /** Records that were valid stay valid as the world grows. */
  lemma ValidExtends(w: World, w': World)
    requires Valid(w) && Extends(w, w')
    ensures forall i :: 0 <= i < |w.entities| ==> w'.entities[i] == w.entities[i] && RecordValid(w', w'.entities[i])
  {
    forall i | 0 <= i < |w.entities|
      ensures w'.entities[i] == w.entities[i] && RecordValid(w', w'.entities[i])
    {
      assert w'.entities[i] == w'.entities[..|w.entities|][i];
    }
  }

  /** A valid world with one more valid record appended stays valid. */
  lemma ValidAppend(w: World, w': World)
    requires Valid(w) && Extends(w, w') && |w'.entities| == |w.entities| + 1
    requires RecordValid(w', w'.entities[|w.entities|])
    ensures Valid(w')
  {
    ValidExtends(w, w');
  }

  /** Materialising keeps every id in the store pointing at something that
      exists. */
  lemma {:induction false} CreateKeepsValid(p: Program, w: Widget, world: World, sender: QueueId, fuel: nat)
    requires Valid(world)
    ensures var r := CreateEntity(p, w, world, sender, fuel);
            r.Ok? ==> Valid(r.value.world)
    decreases fuel, w, 1
  {
    match w
    case Button(_) =>
      LeafKeepsValid(p, w, world, sender, fuel);
    case Group(_, _) =>
      LeafKeepsValid(p, w, world, sender, fuel);
    case Handler(_, _, child) =>
      CreateKeepsValid(p, child, world, sender, fuel);
      HandlerKeepsValid(p, w, world, sender, fuel);
    case ConnectSingleChild(parent, child) =>
      ConnectKeepsValidRec(p, w, world, sender, fuel);
    case ComponentWidget(c) =>
      ComponentKeepsValidRec(p, w, world, sender, fuel);
  }

  lemma ConnectKeepsValidRec(p: Program, w: Widget, world: World, sender: QueueId, fuel: nat)
    requires Valid(world) && w.ConnectSingleChild?
    ensures var r := CreateEntity(p, w, world, sender, fuel);
            r.Ok? ==> Valid(r.value.world)
    decreases fuel, w, 0
  {
    CreateKeepsValid(p, w.parent, world, sender, fuel);
    var pr := CreateEntity(p, w.parent, world, sender, fuel);
    if pr.Ok? {
      CreateKeepsValid(p, w.child, pr.value.world, sender, fuel);
    }
    ConnectKeepsValid(p, w, world, sender, fuel);
  }

  lemma ComponentKeepsValidRec(p: Program, w: Widget, world: World, sender: QueueId, fuel: nat)
    requires Valid(world) && w.ComponentWidget?
    ensures var r := CreateEntity(p, w, world, sender, fuel);
            r.Ok? ==> Valid(r.value.world)
    decreases fuel, w, 0
  {
    if fuel > 0 {
      var world1 := world.(queues := world.queues + [[]]);
      ValidExtends(world, world1);
      CreateKeepsValid(p, p.view(w.component), world1, |world.queues|, fuel - 1);
      ComponentKeepsValid(p, w, world, sender, fuel);
    }
  }

  lemma LeafKeepsValid(p: Program, w: Widget, world: World, sender: QueueId, fuel: nat)
    requires Valid(world) && (w.Button? || w.Group?)
    ensures Valid(CreateEntity(p, w, world, sender, fuel).value.world)
  {
    ValidAppend(world, CreateEntity(p, w, world, sender, fuel).value.world);
  }

  lemma HandlerKeepsValid(p: Program, w: Widget, world: World, sender: QueueId, fuel: nat)
    requires w.Handler?
    requires var b := CreateEntity(p, w.child, world, sender, fuel);
             b.Ok? ==> Valid(b.value.world)
    ensures var r := CreateEntity(p, w, world, sender, fuel);
            r.Ok? ==> Valid(r.value.world)
  {
    var r := CreateEntity(p, w, world, sender, fuel);
    if r.Ok? {
      var b := CreateEntity(p, w.child, world, sender, fuel).value;
      assert r.value.world == b.world.(log := r.value.world.log);
      ValidIgnoresLog(b.world, r.value.world.log);
    }
  }

  lemma ConnectKeepsValid(p: Program, w: Widget, world: World, sender: QueueId, fuel: nat)
    requires w.ConnectSingleChild?
    requires var pb := CreateEntity(p, w.parent, world, sender, fuel);
             pb.Ok? ==>
               var cb := CreateEntity(p, w.child, pb.value.world, sender, fuel);
               cb.Ok? ==> Valid(cb.value.world)
    ensures var r := CreateEntity(p, w, world, sender, fuel);
            r.Ok? ==> Valid(r.value.world)
  {
    var r := CreateEntity(p, w, world, sender, fuel);
    if r.Ok? {
      var pb := CreateEntity(p, w.parent, world, sender, fuel).value;
      var cb := CreateEntity(p, w.child, pb.world, sender, fuel).value;
      assert r.value.world == cb.world.(log := r.value.world.log);
      ValidIgnoresLog(cb.world, r.value.world.log);
    }
  }

  lemma ComponentKeepsValid(p: Program, w: Widget, world: World, sender: QueueId, fuel: nat)
    requires w.ComponentWidget? && fuel > 0
    requires var v := CreateEntity(p, p.view(w.component), world.(queues := world.queues + [[]]), |world.queues|, fuel - 1);
             v.Ok? ==> Valid(v.value.world)
    ensures var r := CreateEntity(p, w, world, sender, fuel);
            r.Ok? ==> Valid(r.value.world)
  {
    var r := CreateEntity(p, w, world, sender, fuel);
    if r.Ok? {
      var v := CreateEntity(p, p.view(w.component), world.(queues := world.queues + [[]]), |world.queues|, fuel - 1).value;
      ValidAppend(v.world, r.value.world);
    }
  }

  lemma ValidIgnoresLog(w: World, log: seq<Action>)
    requires Valid(w)
    ensures Valid(w.(log := log))
  {
    var w' := w.(log := log);
    assert forall i :: 0 <= i < |w'.entities| ==> w'.entities[i] == w.entities[i];
  }

  /** Materialising keeps the store valid and every channel private: the new
      components' channels are new, distinct, and none is `reserved`. */
  lemma CreateKeepsPrivate(p: Program, w: Widget, world: World, sender: QueueId, fuel: nat, reserved: QueueId)
    requires Valid(world) && PrivateQueues(world, reserved) && reserved < |world.queues|
    ensures var r := CreateEntity(p, w, world, sender, fuel);
            r.Ok? ==> Valid(r.value.world) && PrivateQueues(r.value.world, reserved)
  {
    var r := CreateEntity(p, w, world, sender, fuel);
    if r.Ok? {
      CreateKeepsValid(p, w, world, sender, fuel);
      MaterialisedRecordsFresh(p, w, world, sender, fuel);
      ValidExtends(world, r.value.world);
    }
  }
}

=== FILE: runtime.dfy ===
/** `App::run`: the initial build of the root component's view, and the
    `on_tick` step that drains the event channels and re-renders. There is no
    diffing anywhere: every re-render materialises the new view afresh. */
module Runtime {
  import opened Base
  import opened Widgets
  import opened Store
  import opened Materialise

  /** What the tick closure owns: the root component, the root channel, and
      the world. */
  datatype App = App(root: Comp, rootQueue: QueueId, world: World)

  /** The store is valid, the root channel exists, and every component entity
      owns a channel of its own, distinct from the root's. */
  predicate Invariant(a: App) {
    && Valid(a.world)
    && a.rootQueue < |a.world.queues|
    && PrivateQueues(a.world, a.rootQueue)
  }

  /** The initial build: open the root channel, materialise the root
      component's view with its sender, and install the view's control as the
      window's child. */
  function Start(p: Program, root: Comp, fuel: nat): (r: Result<App>)
    ensures r.Ok? ==> r.value.root == root && r.value.rootQueue < |r.value.world.queues|
    ensures r.Ok? ==> r.value.world.queues[r.value.rootQueue] == []
    ensures r.Ok? ==> |r.value.world.log| > 0 && r.value.world.log[|r.value.world.log| - 1].WindowSetChild?
    ensures var v := CreateControl(p, p.view(root), World([], 0, [[]], []), 0, fuel);
            && (r.Ok? <==> v.Ok?)
            && (r.Ok? ==>
                  && r.value.rootQueue == 0
                  && r.value.world == v.value.world.(log := v.value.world.log + [WindowSetChild(v.value.control)]))
  {
    var world := World([], 0, [[]], []);
    var b :- CreateControl(p, p.view(root), world, 0, fuel);
    Ok(App(root, 0, b.world.(log := b.world.log + [WindowSetChild(b.control)])))
  }

  /** The first part of a tick: take at most one event from the root channel;
      if there was one, apply it to the root component, then materialise the
      whole new root view and install it as the window's child. The old root
      controls are neither reused nor destroyed. */
  function RootStep(p: Program, a: App, fuel: nat): (r: Result<App>)
    ensures TryRecv(a.world, a.rootQueue).None? ==> r == Ok(a)
    ensures r.Ok? ==> r.value.rootQueue == a.rootQueue
    ensures TryRecv(a.world, a.rootQueue).Some? ==>
              var m := TryRecv(a.world, a.rootQueue).value;
              && (Handle(p, m.event, a.root).Err? ==> r == Err(DowncastPanic))
              && (r.Ok? ==>
                    && Handle(p, m.event, a.root) == Ok(r.value.root)
                    && Extends(m.world, r.value.world)
                    && |r.value.world.log| > |m.world.log|
                    && r.value.world.log[|r.value.world.log| - 1].WindowSetChild?
                    && m.world.controls <= r.value.world.log[|r.value.world.log| - 1].child < r.value.world.controls)
    ensures TryRecv(a.world, a.rootQueue).Some? && Handle(p, TryRecv(a.world, a.rootQueue).value.event, a.root).Ok? ==>
              var m := TryRecv(a.world, a.rootQueue).value;
              var v := CreateControl(p, p.view(Handle(p, m.event, a.root).value), m.world, a.rootQueue, fuel);
              && (r.Ok? <==> v.Ok?)
              && (r.Ok? ==> r.value.world == v.value.world.(log := v.value.world.log + [WindowSetChild(v.value.control)]))
  {
    match TryRecv(a.world, a.rootQueue)
    case None => Ok(a)
    case Some(Received(e, world)) =>
      var root :- Handle(p, e, a.root);
      var b :- CreateControl(p, p.view(root), world, a.rootQueue, fuel);
      Ok(App(root, a.rootQueue, b.world.(log := b.world.log + [WindowSetChild(b.control)])))
  }

  /** The entities the tick's component query matches: those carrying a
      component state, a channel, a control and a parent-control slot. */
  predicate Drainable(rec: Record) {
    rec.component.Some? && rec.parentControl.Some?
  }

  /** An entity the query matches, with an event waiting on its channel. */
  predicate Pending(w: World, j: nat)
    requires j < |w.entities|
  {
    var rec := w.entities[j];
    Drainable(rec) && rec.component.value.queue < |w.queues| && w.queues[rec.component.value.queue] != []
  }

  /** What the first pass records for one drained component: its entity, its
      new view, its sender, its current control and its parent's control. */
  datatype Update = Update(entity: EntityId, view: Widget, sender: QueueId, control: ControlId, parentControl: ControlId)

  datatype Drained = Drained(world: World, updates: seq<Update>)

  function UpdatedEntities(us: seq<Update>): set<EntityId> {
    set k | 0 <= k < |us| :: us[k].entity
  }

  /** The updates name entities in strictly increasing order, all in `lo .. hi`. */
  predicate Ascending(us: seq<Update>, lo: nat, hi: nat) {
    && (forall k :: 0 <= k < |us| ==> lo <= us[k].entity < hi)
    && (forall k, l :: 0 <= k < l < |us| ==> us[k].entity < us[l].entity)
  }

  /** The first pass of the component drain, over entities `i` onwards in id
      order: for each entity the query matches, take at most one event from its
      channel, apply it to the stored state in place, and record an update
      carrying the view of the edited state. */
  function DrainFrom(p: Program, world: World, i: nat): (r: Result<Drained>)
    requires i <= |world.entities|
    decreases |world.entities| - i
    ensures r.Ok? ==> |r.value.world.entities| == |world.entities| && |r.value.world.queues| == |world.queues|
    ensures r.Ok? ==> r.value.world.controls == world.controls && r.value.world.log == world.log
    ensures r.Ok? ==> Ascending(r.value.updates, i, |world.entities|)
    ensures r.Err? ==> r.error == DowncastPanic
  {
    if i == |world.entities| then Ok(Drained(world, []))
    else
      var rec := world.entities[i];
      if !Drainable(rec) then DrainFrom(p, world, i + 1)
      else
        match TryRecv(world, rec.component.value.queue)
        case None => DrainFrom(p, world, i + 1)
        case Some(Received(e, world1)) =>
          var state :- Handle(p, e, rec.component.value.state);
          var edited := rec.(component := Some(rec.component.value.(state := state)));
          var rest :- DrainFrom(p, world1.(entities := world1.entities[i := edited]), i + 1);
          var u := Update(i, p.view(state), rec.component.value.queue, rec.control, rec.parentControl.value);
          Ok(Drained(rest.world, [u] + rest.updates))
  }

  /** The second pass, for one update: materialise the new view with the
      component's own sender, put the new control into the parent's child slot,
      destroy the old control, and store the new control on the component's
      entity (replacing the old one; a failure to do so is ignored). */
  function ApplyUpdate(p: Program, world: World, u: Update, fuel: nat): (r: Result<World>)
    ensures r.Ok? <==> CreateEntity(p, u.view, world, u.sender, fuel).Ok?
    ensures r.Ok? ==>
              var b := CreateControl(p, u.view, world, u.sender, fuel).value;
              && r.value.log == b.world.log + [SetChild(u.parentControl, b.control), Destroy(u.control)]
              && r.value.controls == b.world.controls && r.value.queues == b.world.queues
              && |r.value.entities| == |b.world.entities|
              && (forall j :: 0 <= j < |b.world.entities| && j != u.entity ==> r.value.entities[j] == b.world.entities[j])
              && (u.entity < |b.world.entities| ==>
                    r.value.entities[u.entity] == b.world.entities[u.entity].(control := b.control))
  {
    var b :- CreateControl(p, u.view, world, u.sender, fuel);
    var log := b.world.log + [SetChild(u.parentControl, b.control), Destroy(u.control)];
    var entities :=
      if u.entity < |b.world.entities| then b.world.entities[u.entity := b.world.entities[u.entity].(control := b.control)]
      else b.world.entities;
    Ok(b.world.(entities := entities, log := log))
  }

  /** The second pass: apply the updates collected by the first, in order. */
  function ApplyUpdates(p: Program, world: World, us: seq<Update>, fuel: nat): (r: Result<World>)
    decreases |us|
  {
    if us == [] then Ok(world)
    else
      var w1 :- ApplyUpdate(p, world, us[0], fuel);
      ApplyUpdates(p, w1, us[1..], fuel)
  }

  /** The `on_tick` closure: the root step, then the component drain's first
      pass over every entity, then its second pass. */
  function Tick(p: Program, a: App, fuel: nat): (r: Result<App>)
    ensures r.Ok? ==> r.value.rootQueue == a.rootQueue
  {
    var a1 :- RootStep(p, a, fuel);
    var d :- DrainFrom(p, a1.world, 0);
    var world :- ApplyUpdates(p, d.world, d.updates, fuel);
    Ok(a1.(world := world))
  }

  /** No entity from `i` onwards that the first pass would drain uses channel
      `q`: the channel belongs to no component, to one the query does not
      match, or to a matched one with nothing waiting. */
  predicate UndrainedFrom(w: World, i: nat, q: QueueId) {
    forall j :: i <= j < |w.entities| && Pending(w, j) ==> w.entities[j].component.value.queue != q
  }

  /** What the first pass, started at `i`, did to entity `j`: if the query
      matched it and its channel had an event, that one event was taken off the
      channel and applied to the stored state, which is all that changed, and
      an update names the entity; otherwise nothing about it changed. */
  predicate DrainedEntity(p: Program, world: World, d: Drained, i: nat, j: nat)
    requires j < |world.entities| == |d.world.entities| && |d.world.queues| == |world.queues|
  {
    var rec := world.entities[j];
    var rec' := d.world.entities[j];
    if i <= j && Pending(world, j) then
      var q := rec.component.value.queue;
      && j in UpdatedEntities(d.updates)
      && rec'.component.Some?
      && rec' == rec.(component := Some(rec.component.value.(state := rec'.component.value.state)))
      && Handle(p, world.queues[q][0], rec.component.value.state) == Ok(rec'.component.value.state)
      && d.world.queues[q] == world.queues[q][1..]
    else
      j !in UpdatedEntities(d.updates) && rec' == rec
  }

  /** An update carries its entity's channel, control and parent control, and
      the view of the entity's state after the edit. */
  predicate UpdateMatches(p: Program, world: World, d: Drained, u: Update) {
    && u.entity < |world.entities| && u.entity < |d.world.entities|
    && var rec := world.entities[u.entity];
       var rec' := d.world.entities[u.entity];
       && rec.component.Some? && rec'.component.Some? && rec.parentControl.Some?
       && u.sender == rec.component.value.queue
       && u.control == rec.control
       && u.parentControl == rec.parentControl.value
       && u.view == p.view(rec'.component.value.state)
  }

  predicate DrainSpecHolds(p: Program, world: World, i: nat, d: Drained) {
    && |d.world.entities| == |world.entities| && |d.world.queues| == |world.queues|
    && (forall j :: 0 <= j < |world.entities| ==> DrainedEntity(p, world, d, i, j))
    && (forall k :: 0 <= k < |d.updates| ==> UpdateMatches(p, world, d, d.updates[k]))
    && (forall q :: 0 <= q < |world.queues| && UndrainedFrom(world, i, q) ==> d.world.queues[q] == world.queues[q])
  }

  /** The first pass, when every component owns its channel: exactly the
      matched entities with a waiting event are drained, each of exactly one
      event, in place; every other entity, and every channel no drained entity
      uses, are left alone. */
  lemma {:induction false} DrainSpec(p: Program, world: World, i: nat)
    requires i <= |world.entities| && DistinctQueues(world)
    ensures var r := DrainFrom(p, world, i);
            r.Ok? ==> DrainSpecHolds(p, world, i, r.value)
    decreases |world.entities| - i
  {
    if i == |world.entities| {
    } else if !Pending(world, i) {
      DrainSpec(p, world, i + 1);
      DrainSkip(p, world, i);
    } else {
      var rec := world.entities[i];
      var m := TryRecv(world, rec.component.value.queue).value;
      var h := Handle(p, m.event, rec.component.value.state);
      if h.Ok? {
        var edited := rec.(component := Some(rec.component.value.(state := h.value)));
        var world2 := m.world.(entities := m.world.entities[i := edited]);
        DistinctAfterEdit(world, world2, i);
        DrainSpec(p, world2, i + 1);
      }
      DrainTake(p, world, i);
    }
  }

  lemma DistinctAfterEdit(world: World, world2: World, i: nat)
    requires DistinctQueues(world) && i < |world.entities| == |world2.entities|
    requires forall j :: 0 <= j < |world.entities| && j != i ==> world2.entities[j] == world.entities[j]
    requires world2.entities[i].component.Some? == world.entities[i].component.Some?
    requires world.entities[i].component.Some? ==>
               world2.entities[i].component.value.queue == world.entities[i].component.value.queue
    ensures DistinctQueues(world2)
  {
  }

  lemma DrainSkip(p: Program, world: World, i: nat)
    requires i < |world.entities| && !Pending(world, i)
    requires var r := DrainFrom(p, world, i + 1);
             r.Ok? ==> DrainSpecHolds(p, world, i + 1, r.value)
    ensures DrainFrom(p, world, i) == DrainFrom(p, world, i + 1)
    ensures var r := DrainFrom(p, world, i);
            r.Ok? ==> DrainSpecHolds(p, world, i, r.value)
  {
    var r := DrainFrom(p, world, i);
    if r.Ok? {
      var d := r.value;
      forall j | 0 <= j < |world.entities|
        ensures DrainedEntity(p, world, d, i, j)
      {
        assert DrainedEntity(p, world, d, i + 1, j);
        if j == i {
          assert !(i + 1 <= j);
        }
      }
      forall q | 0 <= q < |world.queues| && UndrainedFrom(world, i, q)
        ensures d.world.queues[q] == world.queues[q]
      {
        assert UndrainedFrom(world, i + 1, q);
      }
    }
  }

  lemma DrainTake(p: Program, world: World, i: nat)
    requires i < |world.entities| && Pending(world, i) && DistinctQueues(world)
    requires var rec := world.entities[i];
             var m := TryRecv(world, rec.component.value.queue).value;
             var h := Handle(p, m.event, rec.component.value.state);
             h.Ok? ==>
               var edited := rec.(component := Some(rec.component.value.(state := h.value)));
               var world2 := m.world.(entities := m.world.entities[i := edited]);
               var r := DrainFrom(p, world2, i + 1);
               r.Ok? ==> DrainSpecHolds(p, world2, i + 1, r.value)
    ensures var r := DrainFrom(p, world, i);
            r.Ok? ==> DrainSpecHolds(p, world, i, r.value)
  {
    var r := DrainFrom(p, world, i);
    if r.Ok? {
      var rec := world.entities[i];
      var q := rec.component.value.queue;
      var m := TryRecv(world, q).value;
      var h := Handle(p, m.event, rec.component.value.state);
      assert h.Ok?;
      var edited := rec.(component := Some(rec.component.value.(state := h.value)));
      var world2 := m.world.(entities := m.world.entities[i := edited]);
      var rest := DrainFrom(p, world2, i + 1).value;
      var u := Update(i, p.view(h.value), q, rec.control, rec.parentControl.value);
      var d := r.value;
      assert d == Drained(rest.world, [u] + rest.updates);
      assert UndrainedFrom(world2, i + 1, q);
      assert d.world.entities[i] == edited by {
        assert DrainedEntity(p, world2, rest, i + 1, i);
      }
      assert UpdatedEntities(d.updates) == {i} + UpdatedEntities(rest.updates) by {
        assert forall k :: 1 <= k < |d.updates| ==> d.updates[k] == rest.updates[k - 1];
        forall e | e in UpdatedEntities(rest.updates) ensures e in UpdatedEntities(d.updates) {
          var k :| 0 <= k < |rest.updates| && rest.updates[k].entity == e;
          assert d.updates[k + 1] == rest.updates[k];
        }
        forall e | e in UpdatedEntities(d.updates) ensures e == i || e in UpdatedEntities(rest.updates) {
          var k :| 0 <= k < |d.updates| && d.updates[k].entity == e;
          if k > 0 {
            assert rest.updates[k - 1].entity == e;
          }
        }
        assert d.updates[0].entity == i;
      }
      assert i !in UpdatedEntities(rest.updates);
      forall j | 0 <= j < |world.entities|
        ensures DrainedEntity(p, world, d, i, j)
      {
        if j != i {
          assert DrainedEntity(p, world2, rest, i + 1, j);
          assert world2.entities[j] == world.entities[j];
          var qj := world.entities[j].component;
          if qj.Some? && qj.value.queue < |world.queues| {
            assert qj.value.queue != q;
          }
        }
      }
      forall k | 0 <= k < |d.updates|
        ensures UpdateMatches(p, world, d, d.updates[k])
      {
        if k > 0 {
          assert d.updates[k] == rest.updates[k - 1];
          assert UpdateMatches(p, world2, rest, rest.updates[k - 1]);
        }
      }
      forall q' | 0 <= q' < |world.queues| && UndrainedFrom(world, i, q')
        ensures d.world.queues[q'] == world.queues[q']
      {
        assert UndrainedFrom(world2, i + 1, q');
      }
    }
  }

  /** The controls the updates replace, in order. */
  function OldControls(us: seq<Update>): seq<ControlId> {
    seq(|us|, k requires 0 <= k < |us| => us[k].control)
  }

  /** What the second pass did: the world only grew, except that each updated
      entity got a fresh control in place of its old one; exactly the updates'
      old controls were destroyed, in order; the window was not touched. */
  predicate ApplySpecHolds(world: World, us: seq<Update>, w': World) {
    && |world.entities| <= |w'.entities| && world.controls <= w'.controls
    && world.queues <= w'.queues && world.log <= w'.log
    && (forall j :: 0 <= j < |world.entities| && j in UpdatedEntities(us) ==>
          w'.entities[j] == world.entities[j].(control := w'.entities[j].control)
          && world.controls <= w'.entities[j].control)
    && (forall j :: 0 <= j < |world.entities| && j !in UpdatedEntities(us) ==> w'.entities[j] == world.entities[j])
    && Destroyed(w'.log[|world.log|..]) == OldControls(us)
    && (forall k :: |world.log| <= k < |w'.log| ==> !w'.log[k].WindowSetChild?)
  }

  /** One update of the second pass replaces its entity's control by a fresh
      one, attaches the new control before destroying the old one, and
      otherwise only adds to the world. */
  lemma ApplyOne(p: Program, world: World, u: Update, fuel: nat)
    requires u.entity < |world.entities|
    ensures var r := ApplyUpdate(p, world, u, fuel);
            r.Ok? ==> ApplySpecHolds(world, [u], r.value)
  {
    var r := ApplyUpdate(p, world, u, fuel);
    if r.Ok? {
      UpdatedSingleton(u);
      ApplyOneEntities(p, world, u, fuel);
      ApplyOneLog(p, world, u, fuel);
    }
  }

  lemma UpdatedSingleton(u: Update)
    ensures UpdatedEntities([u]) == {u.entity}
  {
    assert [u][0] == u;
  }

  lemma ApplyOneEntities(p: Program, world: World, u: Update, fuel: nat)
    requires u.entity < |world.entities| && ApplyUpdate(p, world, u, fuel).Ok?
    ensures var w' := ApplyUpdate(p, world, u, fuel).value;
            && |world.entities| <= |w'.entities| && world.controls <= w'.controls && world.queues <= w'.queues
            && w'.entities[u.entity] == world.entities[u.entity].(control := w'.entities[u.entity].control)
            && world.controls <= w'.entities[u.entity].control
            && (forall j :: 0 <= j < |world.entities| && j != u.entity ==> w'.entities[j] == world.entities[j])
  {
    var b := CreateControl(p, u.view, world, u.sender, fuel).value;
    PrefixElements(world.entities, b.world.entities);
  }

  lemma ApplyOneLog(p: Program, world: World, u: Update, fuel: nat)
    requires ApplyUpdate(p, world, u, fuel).Ok?
    ensures var w' := ApplyUpdate(p, world, u, fuel).value;
            && world.log <= w'.log
            && Destroyed(w'.log[|world.log|..]) == [u.control]
            && (forall k :: |world.log| <= k < |w'.log| ==> !w'.log[k].WindowSetChild?)
  {
    var b := CreateControl(p, u.view, world, u.sender, fuel).value;
    OnlyConstructs(p, u.view, world, u.sender, fuel);
    ReplaceLog(world.log, b.world.log, u.parentControl, b.control, u.control);
  }

  /** The log of one update: construction, then attach, then destroy. */
  lemma ReplaceLog(log0: seq<Action>, built: seq<Action>, parent: ControlId, newControl: ControlId, oldControl: ControlId)
    requires log0 <= built && OnlyConstruction(built, |log0|)
    ensures var log := built + [SetChild(parent, newControl), Destroy(oldControl)];
            && log0 <= log
            && Destroyed(log[|log0|..]) == [oldControl]
            && (forall k :: |log0| <= k < |log| ==> !log[k].WindowSetChild?)
  {
    var tail := [SetChild(parent, newControl), Destroy(oldControl)];
    var log := built + tail;
    var made := built[|log0|..];
    assert log[|log0|..] == made + tail;
    assert forall k :: 0 <= k < |made| ==> made[k] == built[|log0| + k];
    DestroyedNone(made);
    DestroyedAppend(made, tail);
    assert tail[1..] == [Destroy(oldControl)];
    assert tail[1..][1..] == [];
    assert Destroyed(tail[1..]) == [oldControl] + Destroyed(tail[1..][1..]);
    assert Destroyed(tail) == Destroyed(tail[1..]);
    forall k | |log0| <= k < |log| ensures !log[k].WindowSetChild? {
      if k < |built| { assert log[k] == built[k]; }
    }
  }

  /** A prefix keeps its elements. */
  lemma PrefixElements<T>(a: seq<T>, b: seq<T>)
    requires a <= b
    ensures forall j :: 0 <= j < |a| ==> b[j] == a[j]
  {
    forall j | 0 <= j < |a| ensures b[j] == a[j] {
      assert b[j] == b[..|a|][j];
    }
  }

  /** The second pass, for updates naming distinct existing entities in
      ascending order. */
  lemma {:induction false} ApplySpec(p: Program, world: World, us: seq<Update>, fuel: nat, lo: nat)
    requires Ascending(us, lo, |world.entities|)
    ensures var r := ApplyUpdates(p, world, us, fuel);
            r.Ok? ==> ApplySpecHolds(world, us, r.value)
    decreases |us|
  {
    var r := ApplyUpdates(p, world, us, fuel);
    if r.Ok? {
      if us == [] {
        assert world.log[|world.log|..] == [];
      } else {
        var w1 := ApplyUpdate(p, world, us[0], fuel).value;
        ApplyOne(p, world, us[0], fuel);
        ApplySpec(p, w1, us[1..], fuel, us[0].entity + 1);
        ApplyChain(world, w1, r.value, us);
      }
    }
  }

  lemma ApplyChain(w0: World, w1: World, w2: World, us: seq<Update>)
    requires us != [] && Ascending(us, 0, |w0.entities|)
    requires ApplySpecHolds(w0, [us[0]], w1) && ApplySpecHolds(w1, us[1..], w2)
    ensures ApplySpecHolds(w0, us, w2)
  {
    PrefixElements(w0.queues, w1.queues);
    PrefixElements(w1.queues, w2.queues);
    PrefixElements(w0.log, w1.log);
    PrefixElements(w1.log, w2.log);
    assert w0.queues <= w2.queues;
    assert w0.log <= w2.log;
    assert UpdatedEntities(us) == UpdatedEntities([us[0]]) + UpdatedEntities(us[1..]) by {
      UpdatedSingleton(us[0]);
      forall e | e in UpdatedEntities(us) ensures e in UpdatedEntities([us[0]]) + UpdatedEntities(us[1..]) {
        var k :| 0 <= k < |us| && us[k].entity == e;
        if k > 0 { assert us[1..][k - 1] == us[k]; }
      }
      forall e | e in UpdatedEntities(us[1..]) ensures e in UpdatedEntities(us) {
        var k :| 0 <= k < |us[1..]| && us[1..][k].entity == e;
        assert us[k + 1] == us[1..][k];
      }
    }
    assert us[0].entity !in UpdatedEntities(us[1..]);
    assert w2.log[|w0.log|..] == w1.log[|w0.log|..] + w2.log[|w1.log|..];
    DestroyedAppend(w1.log[|w0.log|..], w2.log[|w1.log|..]);
    assert OldControls(us) == OldControls([us[0]]) + OldControls(us[1..]);
    forall k | |w0.log| <= k < |w2.log| ensures !w2.log[k].WindowSetChild? {
      if k < |w1.log| { assert w2.log[k] == w1.log[k]; }
    }
  }

  /** No entity carries a parent-control slot. */
  predicate NoParentSlots(w: World) {
    forall j :: 0 <= j < |w.entities| ==> w.entities[j].parentControl.None?
  }

  /** Validity only looks at the entities, the control count and the number of
      channels. */
  lemma ValidSameShape(w: World, w': World)
    requires Valid(w) && w'.entities == w.entities && w'.controls == w.controls && |w'.queues| == |w.queues|
    ensures Valid(w')
  {
    assert forall j :: 0 <= j < |w.entities| ==> RecordValid(w, w.entities[j]) ==> RecordValid(w', w'.entities[j]);
  }

  /** Materialising and then logging one more action keeps the invariant, and
      adds no parent-control slot. */
  lemma BuildKeepsInvariant(p: Program, w: Widget, world: World, sender: QueueId, fuel: nat, reserved: QueueId, extra: Action)
    requires Valid(world) && PrivateQueues(world, reserved) && reserved < |world.queues|
    ensures var r := CreateEntity(p, w, world, sender, fuel);
            r.Ok? ==>
              var w' := r.value.world.(log := r.value.world.log + [extra]);
              && Valid(w') && PrivateQueues(w', reserved) && reserved < |w'.queues|
              && (NoParentSlots(world) ==> NoParentSlots(w'))
  {
    var r := CreateEntity(p, w, world, sender, fuel);
    if r.Ok? {
      CreateKeepsPrivate(p, w, world, sender, fuel, reserved);
      MaterialisedRecordsFresh(p, w, world, sender, fuel);
      PrefixElements(world.entities, r.value.world.entities);
      ValidIgnoresLog(r.value.world, r.value.world.log + [extra]);
    }
  }

  /** The initial build establishes the invariant, and no entity it creates
      carries a parent-control slot. */
  lemma StartInvariant(p: Program, root: Comp, fuel: nat)
    ensures var r := Start(p, root, fuel);
            r.Ok? ==> Invariant(r.value) && NoParentSlots(r.value.world)
  {
    var r := Start(p, root, fuel);
    if r.Ok? {
      var world := World([], 0, [[]], []);
      var b := CreateControl(p, p.view(root), world, 0, fuel).value;
      BuildKeepsInvariant(p, p.view(root), world, 0, fuel, 0, WindowSetChild(b.control));
    }
  }

  lemma RootStepInvariant(p: Program, a: App, fuel: nat)
    requires Invariant(a)
    ensures var r := RootStep(p, a, fuel);
            r.Ok? ==> Invariant(r.value) && (NoParentSlots(a.world) ==> NoParentSlots(r.value.world))
  {
    var r := RootStep(p, a, fuel);
    if r.Ok? && TryRecv(a.world, a.rootQueue).Some? {
      var m := TryRecv(a.world, a.rootQueue).value;
      ValidSameShape(a.world, m.world);
      var b := CreateControl(p, p.view(r.value.root), m.world, a.rootQueue, fuel).value;
      BuildKeepsInvariant(p, p.view(r.value.root), m.world, a.rootQueue, fuel, a.rootQueue, WindowSetChild(b.control));
    }
  }

  lemma DrainInvariant(p: Program, world: World, reserved: QueueId)
    requires Valid(world) && PrivateQueues(world, reserved) && reserved < |world.queues|
    ensures var r := DrainFrom(p, world, 0);
            r.Ok? ==>
              && Valid(r.value.world) && PrivateQueues(r.value.world, reserved)
              && (NoParentSlots(world) ==> NoParentSlots(r.value.world))
  {
    var r := DrainFrom(p, world, 0);
    if r.Ok? {
      DrainSpec(p, world, 0);
      var d := r.value;
      forall j | 0 <= j < |world.entities|
        ensures d.world.entities[j].control == world.entities[j].control
        ensures d.world.entities[j].parentControl == world.entities[j].parentControl
        ensures d.world.entities[j].component.Some? == world.entities[j].component.Some?
        ensures world.entities[j].component.Some? ==>
                  && d.world.entities[j].component.value.queue == world.entities[j].component.value.queue
                  && d.world.entities[j].component.value.root == world.entities[j].component.value.root
      {
        assert DrainedEntity(p, world, d, 0, j);
      }
      assert forall j :: 0 <= j < |world.entities| ==> RecordValid(world, world.entities[j]);
    }
  }

  lemma ApplyInvariant(p: Program, world: World, us: seq<Update>, fuel: nat, reserved: QueueId)
    requires Valid(world) && PrivateQueues(world, reserved) && reserved < |world.queues|
    ensures var r := ApplyUpdates(p, world, us, fuel);
            r.Ok? ==>
              && Valid(r.value) && PrivateQueues(r.value, reserved) && reserved < |r.value.queues|
              && (NoParentSlots(world) ==> NoParentSlots(r.value))
    decreases |us|
  {
    var r := ApplyUpdates(p, world, us, fuel);
    if r.Ok? && us != [] {
      var w1 := ApplyUpdate(p, world, us[0], fuel).value;
      ApplyOneInvariant(p, world, us[0], fuel, reserved);
      ApplyInvariant(p, w1, us[1..], fuel, reserved);
    }
  }

  lemma ApplyOneInvariant(p: Program, world: World, u: Update, fuel: nat, reserved: QueueId)
    requires Valid(world) && PrivateQueues(world, reserved) && reserved < |world.queues|
    ensures var r := ApplyUpdate(p, world, u, fuel);
            r.Ok? ==>
              && Valid(r.value) && PrivateQueues(r.value, reserved) && reserved < |r.value.queues|
              && (NoParentSlots(world) ==> NoParentSlots(r.value))
  {
    var r := ApplyUpdate(p, world, u, fuel);
    if r.Ok? {
      var b := CreateControl(p, u.view, world, u.sender, fuel).value;
      BuildKeepsInvariant(p, u.view, world, u.sender, fuel, reserved, Destroy(u.control));
      var w' := r.value;
      var bw := b.world.(log := b.world.log + [Destroy(u.control)]);
      assert Valid(bw) && PrivateQueues(bw, reserved);
      assert forall j :: 0 <= j < |bw.entities| ==> RecordValid(bw, bw.entities[j]);
      assert forall j :: 0 <= j < |w'.entities| ==> RecordValid(w', w'.entities[j]) by {
        forall j | 0 <= j < |w'.entities| ensures RecordValid(w', w'.entities[j]) {
          assert RecordValid(bw, bw.entities[j]);
        }
      }
    }
  }

  /** A tick keeps the store valid and every component's channel private. */
  lemma TickInvariant(p: Program, a: App, fuel: nat)
    requires Invariant(a)
    ensures var r := Tick(p, a, fuel);
            r.Ok? ==> Invariant(r.value) && (NoParentSlots(a.world) ==> NoParentSlots(r.value.world))
  {
    var r := Tick(p, a, fuel);
    if r.Ok? {
      RootStepInvariant(p, a, fuel);
      var a1 := RootStep(p, a, fuel).value;
      DrainInvariant(p, a1.world, a1.rootQueue);
      var d := DrainFrom(p, a1.world, 0).value;
      ApplyInvariant(p, d.world, d.updates, fuel, a1.rootQueue);
    }
  }

  /** The old controls of the entities the query matches with an event
      waiting, from `i` on, in id order. */
  function PendingControls(w: World, i: nat): seq<ControlId>
    requires i <= |w.entities|
    decreases |w.entities| - i
  {
    if i == |w.entities| then []
    else (if Pending(w, i) then [w.entities[i].control] else []) + PendingControls(w, i + 1)
  }

  lemma {:induction false} NonePending(w: World, i: nat)
    requires i <= |w.entities|
    requires forall j :: i <= j < |w.entities| ==> !Drainable(w.entities[j])
    ensures PendingControls(w, i) == []
    decreases |w.entities| - i
  {
    if i < |w.entities| {
      NonePending(w, i + 1);
    }
  }

  /** `PendingControls` only depends on which entities are pending. */
  lemma {:induction false} PendingFrame(w: World, w2: World, i: nat)
    requires i <= |w.entities| <= |w2.entities|
    requires forall j :: i <= j < |w.entities| ==> w2.entities[j] == w.entities[j] && (Pending(w2, j) <==> Pending(w, j))
    requires forall j :: |w.entities| <= j < |w2.entities| ==> !Drainable(w2.entities[j])
    ensures PendingControls(w2, i) == PendingControls(w, i)
    decreases |w.entities| - i
  {
    if i == |w.entities| {
      NonePending(w2, i);
    } else {
      PendingFrame(w, w2, i + 1);
    }
  }

  /** The first pass records the old controls of exactly the pending
      entities, in id order. */
  lemma {:induction false} DrainControls(p: Program, world: World, i: nat)
    requires i <= |world.entities| && DistinctQueues(world)
    ensures var r := DrainFrom(p, world, i);
            r.Ok? ==> OldControls(r.value.updates) == PendingControls(world, i)
    decreases |world.entities| - i
  {
    if i == |world.entities| {
    } else if !Pending(world, i) {
      DrainControls(p, world, i + 1);
    } else {
      var rec := world.entities[i];
      var m := TryRecv(world, rec.component.value.queue).value;
      var h := Handle(p, m.event, rec.component.value.state);
      if h.Ok? {
        var edited := rec.(component := Some(rec.component.value.(state := h.value)));
        var world2 := m.world.(entities := m.world.entities[i := edited]);
        DistinctAfterEdit(world, world2, i);
        DrainControls(p, world2, i + 1);
      }
      DrainControlsTake(p, world, i);
    }
  }

  lemma DrainControlsTake(p: Program, world: World, i: nat)
    requires i < |world.entities| && Pending(world, i) && DistinctQueues(world)
    requires var rec := world.entities[i];
             var m := TryRecv(world, rec.component.value.queue).value;
             var h := Handle(p, m.event, rec.component.value.state);
             h.Ok? ==>
               var edited := rec.(component := Some(rec.component.value.(state := h.value)));
               var world2 := m.world.(entities := m.world.entities[i := edited]);
               var r := DrainFrom(p, world2, i + 1);
               r.Ok? ==> OldControls(r.value.updates) == PendingControls(world2, i + 1)
    ensures var r := DrainFrom(p, world, i);
            r.Ok? ==> OldControls(r.value.updates) == PendingControls(world, i)
  {
    var r := DrainFrom(p, world, i);
    if r.Ok? {
      var rec := world.entities[i];
      var q := rec.component.value.queue;
      var m := TryRecv(world, q).value;
      var h := Handle(p, m.event, rec.component.value.state);
      var edited := rec.(component := Some(rec.component.value.(state := h.value)));
      var world2 := m.world.(entities := m.world.entities[i := edited]);
      forall j | i + 1 <= j < |world.entities|
        ensures world2.entities[j] == world.entities[j] && (Pending(world2, j) <==> Pending(world, j))
      {
        if world.entities[j].component.Some? {
          assert world.entities[j].component.value.queue != q;
        }
      }
      PendingFrame(world, world2, i + 1);
      var rest := DrainFrom(p, world2, i + 1).value;
      assert r.value.updates[1..] == rest.updates;
      assert OldControls(r.value.updates) == [rec.control] + OldControls(rest.updates);
    }
  }

  /** What the root step did to the world, seen from the store: entities,
      controls, channels and log only grew; no channel but the root's changed,
      and the root channel lost its head if it had one; the entities it added
      carry no parent-control slot; it destroyed nothing, and its last action
      installed the window's child. */
  lemma RootStepFrame(p: Program, a: App, fuel: nat)
    requires Invariant(a)
    ensures var r := RootStep(p, a, fuel);
            r.Ok? ==>
              var w := a.world;
              var w1 := r.value.world;
              && w.entities <= w1.entities && w.controls <= w1.controls
              && |w.queues| <= |w1.queues| && w.log <= w1.log
              && (forall q :: 0 <= q < |w.queues| && q != a.rootQueue ==> w1.queues[q] == w.queues[q])
              && (w.queues[a.rootQueue] != [] ==> w1.queues[a.rootQueue] == w.queues[a.rootQueue][1..])
              && (w.queues[a.rootQueue] == [] ==> w1 == w)
              && (forall j :: |w.entities| <= j < |w1.entities| ==> w1.entities[j].parentControl.None?)
              && (forall k :: |w.log| <= k < |w1.log| ==> !w1.log[k].Destroy?)
  {
    var r := RootStep(p, a, fuel);
    if r.Ok? && a.world.queues[a.rootQueue] != [] {
      var m := TryRecv(a.world, a.rootQueue).value;
      var b := CreateControl(p, p.view(r.value.root), m.world, a.rootQueue, fuel).value;
      MaterialisedRecordsFresh(p, p.view(r.value.root), m.world, a.rootQueue, fuel);
      OnlyConstructs(p, p.view(r.value.root), m.world, a.rootQueue, fuel);
      PrefixElements(m.world.queues, b.world.queues);
      assert [m.event] + m.world.queues[a.rootQueue] == a.world.queues[a.rootQueue];
      var w1 := r.value.world;
      forall k | |a.world.log| <= k < |w1.log| ensures !w1.log[k].Destroy? {
        if k < |b.world.log| {
          assert w1.log[k] == b.world.log[k];
        }
      }
    }
  }

  /** What a tick did to entity `j` of the world before it. A pending entity
      had its state edited by exactly the oldest event of its channel, which
      was removed, and got a fresh control; nothing else about it changed. Any
      other entity is unchanged. */
  predicate TickedEntity(p: Program, w: World, w': World, j: nat)
    requires j < |w.entities| <= |w'.entities| && |w.queues| <= |w'.queues|
  {
    var rec := w.entities[j];
    var rec' := w'.entities[j];
    if Pending(w, j) then
      var q := rec.component.value.queue;
      && rec'.component.Some?
      && rec' == rec.(control := rec'.control, component := Some(rec.component.value.(state := rec'.component.value.state)))
      && w.controls <= rec'.control
      && Handle(p, w.queues[q][0], rec.component.value.state) == Ok(rec'.component.value.state)
      && w'.queues[q] == w.queues[q][1..]
    else
      rec' == rec
  }

  predicate TickSpecHolds(p: Program, a: App, r: App)
    requires Invariant(a)
  {
    var w := a.world;
    var w' := r.world;
    var rq := a.rootQueue;
    && r.rootQueue == rq
    && |w.entities| <= |w'.entities| && |w.queues| <= |w'.queues| && w.log <= w'.log
    && (w.queues[rq] == [] ==> r.root == a.root && w'.queues[rq] == [])
    && (w.queues[rq] != [] ==> Handle(p, w.queues[rq][0], a.root) == Ok(r.root) && w'.queues[rq] == w.queues[rq][1..])
    && (forall j :: 0 <= j < |w.entities| ==> TickedEntity(p, w, w', j))
    && (forall q :: 0 <= q < |w.queues| && q != rq && UndrainedFrom(w, 0, q) ==> w'.queues[q] == w.queues[q])
    && Destroyed(w'.log[|w.log|..]) == PendingControls(w, 0)
    && (forall k, l :: |w.log| <= k < l < |w'.log| && w'.log[k].Destroy? ==> !w'.log[l].WindowSetChild?)
  }

  /** One tick, when every component owns its channel: the root channel loses
      at most its oldest event, which was applied to the root; exactly the
      component entities the query matches with an event waiting are
      re-rendered, each applying one event, keeping everything but its state
      and control; every other channel that existed is left alone; their old
      controls are destroyed in id order, one destroy per re-rendered entity
      with repeats kept; and the root's window update comes before any
      destroy. */
  lemma TickSpec(p: Program, a: App, fuel: nat)
    requires Invariant(a)
    ensures var r := Tick(p, a, fuel);
            r.Ok? ==> TickSpecHolds(p, a, r.value)
  {
    var r := Tick(p, a, fuel);
    if r.Ok? {
      var w := a.world;
      RootStepInvariant(p, a, fuel);
      RootStepFrame(p, a, fuel);
      var a1 := RootStep(p, a, fuel).value;
      var d := DrainFrom(p, a1.world, 0).value;
      DrainSpec(p, a1.world, 0);
      DrainControls(p, a1.world, 0);
      ApplySpec(p, d.world, d.updates, fuel, 0);
      var w' := r.value.world;
      assert w' == ApplyUpdates(p, d.world, d.updates, fuel).value;
      PrefixElements(d.world.queues, w'.queues);
      assert UndrainedFrom(a1.world, 0, a.rootQueue);
      TickEntities(p, w, a.rootQueue, a1.world, d, w');
      PendingFrame(w, a1.world, 0);
      TickLog(w.log, a1.world.log, d.world.log, w'.log);
    }
  }

  /** The per-entity part of `TickSpec`, from what the root step, the first
      pass and the second pass each promise. */
  lemma TickEntities(p: Program, w: World, rq: QueueId, w1: World, d: Drained, w': World)
    requires Valid(w) && rq < |w.queues| && PrivateQueues(w, rq)
    requires w.entities <= w1.entities && |w.queues| <= |w1.queues| && w.controls <= w1.controls
    requires forall q :: 0 <= q < |w.queues| && q != rq ==> w1.queues[q] == w.queues[q]
    requires DrainSpecHolds(p, w1, 0, d) && d.world.controls == w1.controls
    requires ApplySpecHolds(d.world, d.updates, w') && |d.world.queues| <= |w'.queues|
    requires forall q :: 0 <= q < |d.world.queues| ==> w'.queues[q] == d.world.queues[q]
    requires forall j :: |w.entities| <= j < |w1.entities| ==> w1.entities[j].parentControl.None?
    ensures |w.entities| <= |w'.entities| && |w.queues| <= |w'.queues|
    ensures forall j :: 0 <= j < |w.entities| ==> w1.entities[j] == w.entities[j] && (Pending(w1, j) <==> Pending(w, j))
    ensures forall j :: 0 <= j < |w.entities| ==> TickedEntity(p, w, w', j)
    ensures forall q :: 0 <= q < |w.queues| && q != rq && UndrainedFrom(w, 0, q) ==> w'.queues[q] == w.queues[q]
  {
    PrefixElements(w.entities, w1.entities);
    forall j | 0 <= j < |w.entities|
      ensures w1.entities[j] == w.entities[j] && (Pending(w1, j) <==> Pending(w, j))
    {
      var rec := w.entities[j];
      if rec.component.Some? {
        assert RecordValid(w, rec);
      }
    }
    forall j | 0 <= j < |w.entities|
      ensures TickedEntity(p, w, w', j)
    {
      assert DrainedEntity(p, w1, d, 0, j);
      var rec := w.entities[j];
      if Pending(w, j) {
        assert RecordValid(w, rec);
        assert rec.component.value.queue != rq;
      }
    }
    forall q | 0 <= q < |w.queues| && q != rq && UndrainedFrom(w, 0, q)
      ensures w'.queues[q] == w.queues[q]
    {
      assert UndrainedFrom(w1, 0, q);
    }
  }

  /** The log of a tick: the root step appends no destroy and the drain
      appends nothing, so the destroys are the second pass's and every window
      update comes before them. */
  lemma TickLog(log0: seq<Action>, log1: seq<Action>, log2: seq<Action>, log3: seq<Action>)
    requires log0 <= log1 && log1 == log2 && log2 <= log3
    requires forall k :: |log0| <= k < |log1| ==> !log1[k].Destroy?
    requires forall k :: |log2| <= k < |log3| ==> !log3[k].WindowSetChild?
    ensures log0 <= log3
    ensures Destroyed(log3[|log0|..]) == Destroyed(log3[|log2|..])
    ensures forall k, l :: |log0| <= k < l < |log3| && log3[k].Destroy? ==> !log3[l].WindowSetChild?
  {
    var head := log1[|log0|..];
    assert log3[|log0|..] == head + log3[|log2|..];
    assert forall k :: 0 <= k < |head| ==> head[k] == log1[|log0| + k];
    DestroyedNone(head);
    DestroyedAppend(head, log3[|log2|..]);
    forall k | |log0| <= k < |log1| ensures !log3[k].Destroy? {
      assert log3[k] == log1[k];
    }
  }

  /** With no parent-control slot anywhere, the first pass matches nothing. */
  lemma {:induction false} NothingDrained(p: Program, world: World, i: nat)
    requires i <= |world.entities| && NoParentSlots(world)
    ensures DrainFrom(p, world, i) == Ok(Drained(world, []))
    decreases |world.entities| - i
  {
    if i < |world.entities| {
      NothingDrained(p, world, i + 1);
    }
  }

  /** As the code stands, no entity ever carries the parent-control slot the
      component query asks for, so from the initial build on a tick is only
      its root step: events sent to a nested component's channel are never
      applied. */
  lemma TickIsRootStep(p: Program, a: App, fuel: nat)
    requires Invariant(a) && NoParentSlots(a.world)
    ensures Tick(p, a, fuel) == RootStep(p, a, fuel)
    ensures var r := Tick(p, a, fuel);
            r.Ok? ==> Invariant(r.value) && NoParentSlots(r.value.world)
  {
    var r := RootStep(p, a, fuel);
    if r.Ok? {
      RootStepInvariant(p, a, fuel);
      NothingDrained(p, r.value.world, 0);
    }
  }

  /** `n` ticks in a row, stopping at the first fault. */
  function Ticks(p: Program, a: App, fuel: nat, n: nat): (r: Result<App>)
    decreases n
    ensures r.Ok? ==> r.value.rootQueue == a.rootQueue
  {
    if n == 0 then Ok(a)
    else
      var before :- Ticks(p, a, fuel, n - 1);
      Tick(p, before, fuel)
  }

  /** The invariant holds and no entity has a parent-control slot, unless the
      run already faulted. */
  predicate Settled(r: Result<App>) {
    r.Ok? ==> Invariant(r.value) && NoParentSlots(r.value.world)
  }

  lemma TickSettled(p: Program, a: App, fuel: nat)
    requires Settled(Ok(a))
    ensures Settled(Tick(p, a, fuel))
  {
    TickInvariant(p, a, fuel);
  }

  /** After the initial build and any number of ticks the invariant holds and
      no entity has a parent-control slot, so the next tick is only a root
      step. */
  lemma RunInvariant(p: Program, root: Comp, fuel: nat, n: nat)
    ensures var s := Start(p, root, fuel);
            s.Ok? ==>
              var r := Ticks(p, s.value, fuel, n);
              r.Ok? ==>
                && Invariant(r.value) && NoParentSlots(r.value.world)
                && Tick(p, r.value, fuel) == RootStep(p, r.value, fuel)
  {
    var s := Start(p, root, fuel);
    if s.Ok? {
      StartInvariant(p, root, fuel);
      TicksSettled(p, s.value, fuel, n);
      var r := Ticks(p, s.value, fuel, n);
      if r.Ok? {
        TickIsRootStep(p, r.value, fuel);
      }
    }
  }

  lemma {:induction false} TicksSettled(p: Program, a: App, fuel: nat, n: nat)
    requires Settled(Ok(a))
    ensures Settled(Ticks(p, a, fuel, n))
    decreases n
  {
    if n > 0 {
      TicksSettled(p, a, fuel, n - 1);
      var before := Ticks(p, a, fuel, n - 1);
      if before.Ok? {
        TickSettled(p, before.value, fuel);
      }
    }
  }

  /** The initial build binds the root view's listeners to the root channel,
      except those inside nested components, which get channels of their own. */
  lemma StartListeners(p: Program, root: Comp, fuel: nat)
    ensures var r := Start(p, root, fuel);
            r.Ok? ==> ListenersTarget(r.value.world.log, 0, r.value.rootQueue, 1, |r.value.world.queues|)
  {
    var r := Start(p, root, fuel);
    if r.Ok? {
      var world := World([], 0, [[]], []);
      ListenersBound(p, p.view(root), world, 0, fuel);
    }
  }

  /** Every root rebuild binds the new root view's listeners to the same root
      channel as the initial build, except those inside nested components. */
  lemma RootListeners(p: Program, a: App, fuel: nat)
    ensures var r := RootStep(p, a, fuel);
            r.Ok? ==> ListenersTarget(r.value.world.log, |a.world.log|, a.rootQueue, |a.world.queues|, |r.value.world.queues|)
  {
    var r := RootStep(p, a, fuel);
    if r.Ok? && TryRecv(a.world, a.rootQueue).Some? {
      var m := TryRecv(a.world, a.rootQueue).value;
      ListenersBound(p, p.view(r.value.root), m.world, a.rootQueue, fuel);
    }
  }

  /** A click on a root-view button, with the root channel idle, is applied
      to the root component by the next root step, which empties the channel
      again and rebuilds the view of the edited root; a handler for another
      component type is a fault. */
  lemma RootClickRoundTrip(p: Program, a: App, h: HandlerFn, fuel: nat)
    requires Invariant(a) && a.world.queues[a.rootQueue] == []
    ensures var r := RootStep(p, a.(world := Click(a.world, h, a.rootQueue)), fuel);
            var root := Comp(a.root.ty, p.run(h.code, a.root.fields));
            && (h.selfTy != a.root.ty ==> r == Err(DowncastPanic))
            && (h.selfTy == a.root.ty ==>
                  (r.Ok? <==> CreateEntity(p, p.view(root), a.world, a.rootQueue, fuel).Ok?))
            && (r.Ok? ==>
                  && r.value.root == root
                  && Extends(a.world, r.value.world)
                  && r.value.world.queues[a.rootQueue] == [])
  {
    SendThenReceive(a.world, a.rootQueue, Event(h));
    var r := RootStep(p, a.(world := Click(a.world, h, a.rootQueue)), fuel);
    if r.Ok? {
      PrefixElements(a.world.queues, r.value.world.queues);
    }
  }
}

=== FILE: store.dfy ===
/** The entity store (the `legion` world), the native controls as abstract ids
    with an append-only log of what the backend was asked to do, and the event
    channels as FIFO queues. */
module Store {
  import opened Base
  import opened Widgets

  /** The components a `ComponentWidget` entity carries besides its control:
      `ComponentState`, `Root(view root entity)` and one channel, whose sender
      and receiver are both stored and share the id `queue`. */
  datatype ComponentRecord = ComponentRecord(state: Comp, root: EntityId, queue: QueueId)

  /** One entity. `widget` is the cloned widget value (stored by `Button` and
      `Group`), `control` the `Fragile<Control>` slot, `component` the component
      fields, and `parentControl` the `Fragile<Box<dyn SingleChildParentControl>>`
      slot that the tick's query asks for. */
  datatype Record = Record(
    widget: Option<Widget>,
    control: ControlId,
    component: Option<ComponentRecord>,
    parentControl: Option<ControlId>)

  /** Calls into the native toolkit, in the order they are made. */
  datatype Action =
    | NewButton(control: ControlId, text: string)
    | NewGroup(control: ControlId, title: string)
    | SetMargined(control: ControlId, margined: bool)
    | SetChild(control: ControlId, child: ControlId)
    | OnClicked(control: ControlId, handler: HandlerFn, queue: QueueId)
    | Destroy(control: ControlId)
    | WindowSetChild(child: ControlId)

  /** The world: an arena of entities (an entity's id is its index; entities
      are never removed), the number of controls allocated so far, the pending
      events of every channel, and the log of native calls. */
  datatype World = World(
    entities: seq<Record>,
    controls: nat,
    queues: seq<seq<Event>>,
    log: seq<Action>)

  predicate RecordValid(w: World, rec: Record) {
    && rec.control < w.controls
    && (rec.component.Some? ==>
          rec.component.value.root < |w.entities| && rec.component.value.queue < |w.queues|)
    && (rec.parentControl.Some? ==> rec.parentControl.value < w.controls)
  }

  /** Every id a record holds names something that exists. */
  predicate Valid(w: World) {
    forall i :: 0 <= i < |w.entities| ==> RecordValid(w, w.entities[i])
  }

  /** `w'` is `w` with only additions: new entities, new controls, new and
      still empty queues, and new log entries. */
  predicate Extends(w: World, w': World) {
    && w.entities <= w'.entities
    && w.controls <= w'.controls
    && w.queues <= w'.queues
    && (forall q :: |w.queues| <= q < |w'.queues| ==> w'.queues[q] == [])
    && w.log <= w'.log
  }

  /** No two component entities share a channel. */
  predicate DistinctQueues(w: World) {
    forall i, j ::
      (0 <= i < j < |w.entities| && w.entities[i].component.Some? && w.entities[j].component.Some?) ==>
      w.entities[i].component.value.queue != w.entities[j].component.value.queue
  }

  /** No two component entities share a channel, and none uses `reserved`. */
  predicate PrivateQueues(w: World, reserved: QueueId) {
    && DistinctQueues(w)
    && (forall i :: 0 <= i < |w.entities| && w.entities[i].component.Some? ==>
          w.entities[i].component.value.queue != reserved)
  }

  /** The controls destroyed by a stretch of the log, in order. */
  function Destroyed(log: seq<Action>): seq<ControlId> {
    if log == [] then []
    else (if log[0].Destroy? then [log[0].control] else []) + Destroyed(log[1..])
  }

  lemma {:induction false} DestroyedAppend(a: seq<Action>, b: seq<Action>)
    ensures Destroyed(a + b) == Destroyed(a) + Destroyed(b)
  {
    if a == [] {
      assert a + b == b;
    } else {
      assert (a + b)[1..] == a[1..] + b;
      DestroyedAppend(a[1..], b);
    }
  }

  lemma {:induction false} DestroyedNone(log: seq<Action>)
    requires forall k :: 0 <= k < |log| ==> !log[k].Destroy?
    ensures Destroyed(log) == []
  {
    if log != [] {
      DestroyedNone(log[1..]);
    }
  }

  /** `Sender::send`: append to the channel; a send whose channel does not
      exist fails, and the source ignores that failure. */
  function Send(w: World, q: QueueId, e: Event): (r: World)
    ensures |r.queues| == |w.queues| && r.entities == w.entities && r.controls == w.controls && r.log == w.log
    ensures q < |w.queues| ==> r.queues[q] == w.queues[q] + [e]
    ensures forall k :: 0 <= k < |w.queues| && k != q ==> r.queues[k] == w.queues[k]
  {
    if q < |w.queues| then w.(queues := w.queues[q := w.queues[q] + [e]]) else w
  }

  datatype Received = Received(event: Event, world: World)

  /** `Receiver::try_recv`: take the oldest pending event, if there is one. An
      empty channel yields `None`, which callers treat as nothing to do. */
  function TryRecv(w: World, q: QueueId): (r: Option<Received>)
    ensures r.Some? <==> q < |w.queues| && w.queues[q] != []
    ensures r.Some? ==> |r.value.world.queues| == |w.queues| && r.value.world.entities == w.entities
    ensures r.Some? ==> [r.value.event] + r.value.world.queues[q] == w.queues[q]
    ensures r.Some? ==> forall k :: 0 <= k < |w.queues| && k != q ==> r.value.world.queues[k] == w.queues[k]
    ensures r.Some? ==> r.value.world.controls == w.controls && r.value.world.log == w.log
  {
    if q < |w.queues| && w.queues[q] != [] then
      Some(Received(w.queues[q][0], w.(queues := w.queues[q := w.queues[q][1..]])))
    else None
  }

  /** The channels are FIFO: sending and then receiving from a non-empty channel
      is receiving first and sending after; on an empty channel the event sent
      is the one received, leaving the channel empty again. */
  lemma SendThenReceive(w: World, q: QueueId, e: Event)
    requires q < |w.queues|
    ensures w.queues[q] == [] ==> TryRecv(Send(w, q, e), q) == Some(Received(e, w))
    ensures w.queues[q] != [] ==>
              var r := TryRecv(w, q).value;
              TryRecv(Send(w, q, e), q) == Some(Received(r.event, Send(r.world, q, e)))
  {
    var xs := w.queues[q];
    var sent := Send(w, q, e);
    assert sent.queues[q] == xs + [e];
    if xs == [] {
      assert (xs + [e])[1..] == [];
      assert sent.queues[q := []] == w.queues;
    } else {
      var r := TryRecv(w, q).value;
      assert (xs + [e])[1..] == xs[1..] + [e];
      assert sent.queues[q := (xs + [e])[1..]] == r.world.queues[q := xs[1..] + [e]];
    }
  }

  /** The click listener a `Button` control gets from `on_event`: each click
      sends one event carrying the bound handler to the captured sender; a
      failed send is ignored. */
  function Click(w: World, handler: HandlerFn, sender: QueueId): (r: World)
    ensures |r.queues| == |w.queues|
    ensures sender < |w.queues| ==> r.queues[sender] == w.queues[sender] + [Event(handler)]
    ensures sender >= |w.queues| ==> r == w
    ensures forall k :: 0 <= k < |w.queues| && k != sender ==> r.queues[k] == w.queues[k]
  {
    Send(w, sender, Event(handler))
  }
}

=== FILE: widgets.dfy ===
/** Widget values, their Rust type identity, the boxed equality of
    `dyn BoxedPrimitiveWidget`, the builder helpers of `Button` and `Group`,
    and the type-checked application of a queued event to a component. */
module Widgets {
  import opened Base

  /** A component value: `ty` names its concrete Rust type and `fields` stands
      for the value of that type. Its `PartialEq` is taken to be structural. */
  datatype Comp = Comp(ty: TypeTag, fields: seq<int>)

  /** A `fn(&mut SelfTy)` handler: the type it expects and which function it is. */
  datatype HandlerFn = HandlerFn(selfTy: TypeTag, code: nat)

  /** The only native event a `Button` exposes. */
  datatype ButtonEvent = Clicked

  /** The closed set of widget values the framework defines. */
  datatype Widget =
    | Button(text: string)
    | Group(title: string, margined: bool)
    | Handler(handler: HandlerFn, event: ButtonEvent, child: Widget)
    | ConnectSingleChild(parent: Widget, child: Widget)
    | ComponentWidget(component: Comp)

  /** The concrete Rust type of a widget value. Generic widgets are distinct
      types for distinct type arguments: `Handler<V, SelfTy>` depends on both
      `V` and `SelfTy`, `ConnectSingleChild<P, C>` on both `P` and `C`. */
  datatype Ty =
    | ButtonTy
    | GroupTy
    | HandlerTy(childTy: Ty, selfTy: TypeTag)
    | ConnectTy(parentTy: Ty, childTy: Ty)
    | ComponentTy(tag: TypeTag)

  function TypeOf(w: Widget): Ty {
    match w
    case Button(_) => ButtonTy
    case Group(_, _) => GroupTy
    case Handler(h, _, c) => HandlerTy(TypeOf(c), h.selfTy)
    case ConnectSingleChild(p, c) => ConnectTy(TypeOf(p), TypeOf(c))
    case ComponentWidget(c) => ComponentTy(c.ty)
  }

  /** The `PartialEq` impl of each concrete widget type, for two values of that
      type: derived on `Button`, `Group` and `ComponentWidget`; on `Handler` it
      looks only at `child`, on `ConnectSingleChild` only at `parent`. */
  predicate PartialEq(a: Widget, b: Widget) {
    match (a, b)
    case (Button(t1), Button(t2)) => t1 == t2
    case (Group(t1, m1), Group(t2, m2)) => t1 == t2 && m1 == m2
    case (Handler(_, _, c1), Handler(_, _, c2)) => PartialEq(c1, c2)
    case (ConnectSingleChild(p1, _), ConnectSingleChild(p2, _)) => PartialEq(p1, p2)
    case (ComponentWidget(c1), ComponentWidget(c2)) => c1 == c2
    case _ => false
  }

  /** `BoxedPrimitiveWidget::eq(w, other)`: downcast `other` to the concrete
      type of `w`, and on success compare `Some(other) == Some(w)`, which calls
      `other`'s `PartialEq` with `w` as argument. */
  predicate BoxedEq(w: Widget, other: Widget) {
    TypeOf(other) == TypeOf(w) && PartialEq(other, w)
  }

  /** `Button::on_clicked`: wrap the button, unchanged, in a `Handler`. */
  function OnClicked(b: Widget, handler: HandlerFn): Widget
    requires b.Button?
  {
    Handler(handler, Clicked, b)
  }

  /** `Group::child` (the `SingleChildParent` impl). */
  function Child(g: Widget, child: Widget): Widget
    requires g.Group?
  {
    ConnectSingleChild(g, child)
  }

  /** A queued event: the boxed `TypedEvent` carrying one handler. */
  datatype Event = Event(handler: HandlerFn)

  /** The application's own code, which the framework only calls: each
      component type's `view`, and the body of each handler function. A handler
      runs on a value of its `SelfTy` and leaves it of that type. */
  datatype Program = Program(view: Comp -> Widget, run: (nat, seq<int>) -> seq<int>)

  /** `Event::handle` through `TypedEvent::handle`: downcast the component to
      the handler's `SelfTy` and run the handler on it; the `unwrap` of a failed
      downcast is a panic. */
  function Handle(p: Program, e: Event, c: Comp): (r: Result<Comp>)
    ensures r.Ok? <==> e.handler.selfTy == c.ty
    ensures r.Err? ==> r.error == DowncastPanic
    ensures r.Ok? ==> r.value.ty == c.ty && r.value.fields == p.run(e.handler.code, c.fields)
  {
    if e.handler.selfTy == c.ty then Ok(Comp(c.ty, p.run(e.handler.code, c.fields)))
    else Err(DowncastPanic)
  }
}
